=== FILE: README.md ===
# HydroBytes BaseStation: the station service, in Dafny

This project models the core of the HydroBytes BaseStation web service. The
service keeps a catalogue of *station types* and the *stations* that belong to
them, and it exposes them over a JSON HTTP API protected by bearer tokens.
Accounts exchange a name and password, sent with Basic authentication, for a
token. The model covers six parts:

- **Repositories.** The station-type and station repositories (`StationTypes`,
  `Stations`) and the account repository (`Accounts`). They work on a store of
  three keyed tables (`Store`), which keeps the schema's constraints:
  - UUID-typed id columns, which refuse text that is not a UUID and compare
    ids by value, so an id written with upper-case letters names the same row
    as its lower-case spelling (`Uuid.Canonical`);
  - primary keys;
  - the station-to-station-type foreign key with `ON DELETE CASCADE`;
  - 32-bit location columns.

  A store that is not `online` stands for every database failure other than
  "no rows".

  The schema migrations create no account table. The account table is an
  assumption taken from internal/account/account.go: accounts are keyed by
  their unique name, a second account with the same name is a unique
  violation, and account ids are UUIDs.
- **Records and their tags.** The create and update records, their `validate`
  tags (`StationTypeModels`, `AccountModels`) and how a request body is
  decoded into them (`Decode`).
- **Errors.** The error values in the shape Go gives them (`Errors`):
  - sentinels compared with `==`;
  - `errors.Wrap` layers, and `errors.Cause`, which strips them;
  - the web package's request error, which carries an HTTP status.
- **Responders.** The two responders (`Web.Respond`, `Web.RespondError`). The
  status a client finally sees is `Web.ClientStatus`.
- **Handlers.** The HTTP handlers (`StationTypeHandlers`, `AccountHandlers`).
  Each one is a pure function from request context, request, environment and
  store to an `Effect`. An `Effect` holds four things:
  - the new store;
  - the reply written;
  - the error returned;
  - the log lines emitted.
- **Routing and logging.** The route table, as data, with a router that picks
  the matching route (`Routes`). The request-logging middleware is a function
  from handler to handler (`Logger`).

Some things a handler needs come from outside. These become parameters:
- the clock and freshly generated ids (`Env`);
- bcrypt (`Accounts.Crypt`);
- token signing (`AccountHandlers.Signer`).

Listing queries have no `ORDER BY`, so the model returns their rows in
ascending id order (`Ordering.SortedIds`), which is one of the orders the
database may produce.

Where the model departs from the code, or the code is inconsistent:

- **A missing function.** The station handler `RetrieveStation`
  (cmd/api/internal/handlers/station_type.go:251) calls
  `station_type.GetStation`, but the repository defines only
  `RetrieveStation` (internal/station_type/station.go:155). The model calls
  `RetrieveStation`, which the handler evidently means.
- **A missing column.** The `station` table created by
  internal/schema/migrate.go:34-46 has no `account_id` column. The repository
  nevertheless writes and reads one. The model follows the repository: a
  station records the account that added it.
- **Two signatures of `web.Respond`.** The handlers call it with a context,
  but internal/platform/web/response.go:13 takes none. So no handler records
  its status in the request values, and the log line shows the status the
  values already held.
- **Undefined identifiers.** The `auth` package, `web.Decode`, `web.Error`,
  `web.NewRequestError` and the `Errors` and `Metrics` middleware are not part
  of this model. Nor are `web.ErrorResponse` and `web.FieldError`, which
  internal/platform/web/response.go:45-48 and :56 build. The model assumes
  their JSON shape: an object with an `error` string and a `fields` array
  that is left out when empty (`omitempty`), each field error being an
  object with `field` and `error` strings (`Web.ErrorJson`). Neither are
  the records `UpdateStationType` and
  `UpdateStation`: the handlers use them
  (cmd/api/internal/handlers/station_type.go:122 and :186), but
  internal/station_type/models.go does not define them. The model gives
  `UpdateStationType` an optional `name` and `description`, and
  `UpdateStation` an optional `name`, `description`, `location_x` and
  `location_y`. These are the fields the repository's partial updates read
  (internal/station_type/station_type.go:155-160,
  internal/station_type/station.go:79-90). The behaviour of the missing code
  is stated in the model as follows:
  - claims carry a subject, roles and a validity window;
  - `HasRole` is membership;
  - the administrator role is `"ADMIN"`;
  - a body that cannot be decoded, or whose fields have the wrong JSON type,
    is a 400 request error;
  - `web.Decode` ignores keys the record does not have;
  - `web.Decode` reads the members in order, as encoding/json does. An
    absent field keeps the zero value, or a nil pointer in the update
    records. `null` makes a pointer field nil and leaves any other field as
    it was. A later well-typed member with the same key overrides an earlier
    one. A member of the wrong JSON type makes the whole body undecodable,
    even if a later member with the same key is well typed;
  - a record failing its tags is a 400 `field validation error` that lists
    the failed fields, each by its JSON name and the tag that failed;
  - every returned error is answered by `RespondError`.
- **Middleware that the web package does not take.** internal/platform/web/web.go:19
  and :27 define `NewApp(log)` and `Handle(method, url, http.HandlerFunc)`,
  neither of which takes middleware. Yet cmd/api/internal/handlers/routes.go:21
  and :40-69 pass middleware to both, and internal/mid/logger.go:19-34 uses
  `web.Middleware`, `web.Handler`, `web.KeyValues`, `web.Values` and
  `web.NewShutdownError`, none of which web.go defines. The model assumes the
  usual meaning of such lists: the first middleware listed runs outermost,
  and the application middleware wraps the route middleware
  (`Routes.Chain`, `Routes.AppStack`).

## Model

| member | source | states |
|---|---|---|
| Errors.Cause | internal/platform/web/response.go:44 | `errors.Cause` strips every wrap layer and stops at anything else, a request error included |
| Errors.CauseOfWrapAll | internal/platform/web/response.go:44 | wrapping an error any number of times leaves its cause unchanged |
| Errors.MessageOfWrapAllEndsWithOriginal | cmd/api/internal/handlers/station_type.go:107 | a wrapped error's text ends with the original error's text |
| StationTypeModels.NewStationTypeErrors | internal/station_type/models.go:27-30 | the validator reports `name`/`required` exactly when the name is empty, and nothing else; an empty report means valid |
| StationTypeModels.NewStationErrors | internal/station_type/models.go:45-50 | one report entry per failed tag: `name` required, `location_x` and `location_y` `gte=0`, each if and only if it fails |
| StationTypeModels.EmptyNameIsTheOnlyFailure | internal/station_type/models.go:46-49 | an unnamed station at non-negative coordinates fails exactly the `required` tag |
| StationTypeModels.OriginIsAValidLocation | internal/station_type/models.go:48-49 | `gte=0` admits zero: a named station at (0, 0) is valid |
| AccountModels.NewAccountErrors | internal/account/models.go:20-25 | each of the four tags is reported if and only if it fails; an empty report means valid |
| AccountModels.AccountJson | internal/account/models.go:10-17 | the JSON form of an account has no `password_hash` key |
| AccountModels.AccountJsonHidesHash | internal/account/models.go:14 | two accounts that differ only in their hash have the same JSON form |
| AccountModels.EmptyRolesPassRequired | internal/account/models.go:22 | `required` on the role slice accepts an empty list and rejects only a nil one |
| Uuid.Canonical | internal/schema/migrate.go:21-36 | the canonical spelling of an id has no upper-case letter, is a UUID exactly when the id is, and is the id itself when the id is already lower case |
| Uuid.CanonicalIsIdempotent | internal/schema/migrate.go:21-36 | a canonical id is its own canonical spelling |
| Uuid.TestIdsAreMalformed | internal/station_type/station_test.go:86-143 | the ids the repository tests use as malformed (`123abc`, `123456`) are not UUIDs |
| Decode.DecodeNewStationType | internal/station_type/models.go:27-30 | a decoded NewStationType always satisfies its tags; every failure is a 400 request error |
| Decode.DecodeUpdateStationType | cmd/api/internal/handlers/station_type.go:122-125 | decoding an update never validates; its only failure is the undecodable-body error |
| Decode.DecodeNewStation | internal/station_type/models.go:45-50 | a decoded NewStation satisfies its tags and has coordinates that fit a Go `int`; every failure is a 400 request error |
| Decode.DecodeUpdateStation | cmd/api/internal/handlers/station_type.go:186-189 | decoding a station update never validates; its only failure is the undecodable-body error |
| Decode.NewStationTypeRoundTrip | internal/station_type/models.go:27-30 | the JSON a client writes for a NewStationType decodes back to it when it is valid, and otherwise to a 400 listing exactly its failed tags |
| Decode.UpdateStationTypeRoundTrip | cmd/api/internal/handlers/station_type.go:122-125 | the JSON a client writes for a partial station-type update decodes back to the same update, absent fields staying absent |
| Decode.Scan | cmd/api/internal/handlers/station_type.go:36 | a field read without error holds a value of the field's Go type that some member with that key carries; the only failure is the undecodable-body error |
| Decode.ScanFailsExactlyWhenIllTyped | cmd/api/internal/handlers/station_type.go:36 | reading a field fails if and only if some member with its key holds a non-null value of the wrong JSON type, wherever that member stands |
| Decode.ScanSkipsOtherKey | cmd/api/internal/handlers/station_type.go:36 | a member with another key does not change what a field reads |
| Decode.ScanTakesLast | cmd/api/internal/handlers/station_type.go:36 | a later well-typed member with the key overrides what the field read before |
| Decode.LaterNull | cmd/api/internal/handlers/station_type.go:123 | a later `null` leaves a plain field as it was and makes a pointer field nil |
| Decode.StringField | cmd/api/internal/handlers/station_type.go:36 | a string field fails if and only if some member with its key is ill typed, and a string it reads is one such a member carries |
| Decode.IntField | cmd/api/internal/handlers/station_type.go:158 | an integer field fails if and only if some member with its key is ill typed, and a number it reads fits a Go `int` and is one such a member carries |
| Decode.LaterNullKeepsPlainField | cmd/api/internal/handlers/station_type.go:36 | `{"name": "a", "name": null}` creates a station type named "a" |
| Decode.LaterNullClearsPointerField | cmd/api/internal/handlers/station_type.go:123 | the same body sent as an update changes no field |
| Decode.EarlierTypeErrorStands | cmd/api/internal/handlers/station_type.go:36 | `{"name": 5, "name": "a"}` is refused as undecodable |
| Decode.EmptyObjectIsRejected | internal/station_type/models.go:46 | `{}` decodes to the zero NewStation, which is refused naming only `name`/`required` |
| Decode.NewStationRoundTrip | internal/station_type/models.go:45-50 | the JSON a client writes for a NewStation decodes back to that NewStation when it is valid, and otherwise to a 400 listing exactly its failed tags |
| Decode.UpdateStationRoundTrip | cmd/api/internal/handlers/station_type.go:186-189 | the JSON a client writes for a partial station update decodes back to the same update, absent fields staying absent |
| Store.UnknownTypeHasNoStations | internal/schema/migrate.go:45 | under the foreign key, a station type that is not stored has no stations |
| StationTypes.Create | internal/station_type/station_type.go:27-58 | succeeds exactly when the store is up, the new id is a UUID and unused; stores exactly one new row, under the id's canonical spelling, with the given fields and a zero station count; on failure the store is unchanged and the error wraps a database error |
| StationTypes.Get | internal/station_type/station_type.go:108-141 | a malformed id is `ErrInvalidID`, a failing store a wrapped database error, an absent id `ErrNotFound`; success exactly when the id, in any letter case, names a stored row, returning that row's id, name, description and dates with the number of stations of the type |
| StationTypes.GetIgnoresCase | internal/station_type/station_type.go:129-132 | two spellings of one UUID get the same answer from Get |
| StationTypes.List | internal/station_type/station_type.go:81-105 | a failing store gives the wrapped `selecting station types` error; otherwise one entry per stored station type |
| StationTypes.ListHasEveryTypeOnce | internal/station_type/station_type.go:81-105 | the list holds every stored station type exactly once, each with its row's fields and its station count |
| StationTypes.GetOfStoredType | internal/station_type/station_type.go:108-141 | Get of a stored id returns exactly the entry the listing shows for it |
| StationTypes.Update | internal/station_type/station_type.go:145-178 | succeeds exactly when Get does, passing Get's error on unchanged; on success only the row the id names, in any letter case, changes: the supplied fields are replaced and the update time set |
| StationTypes.Delete | internal/station_type/station_type.go:61-78 | a malformed id is `ErrInvalidID`, a failing store a wrapped error; otherwise it succeeds whether or not the id exists, removes the type the id names in any letter case and, by the cascade, exactly its stations |
| StationTypes.CascadeKeepsWellFormed | internal/schema/migrate.go:45 | removing a station type together with its stations keeps every constraint of the store |
| StationTypes.DeleteIgnoresCase | internal/station_type/station_type.go:71-73 | two spellings of one UUID delete the same rows |
| StationTypes.GetMalformedIgnoresStore | internal/station_type/station_type.go:113-115 | a malformed id is refused before the store is read |
| StationTypes.CreateThenGet | internal/station_type/station_type.go:27-58 | what Create returns is what Get then finds, with the id in canonical spelling, which for a lower-case generated id is the id itself |
| StationTypes.UpdateThenGet | internal/station_type/station_type.go:153-160 | after Update, Get shows the supplied fields replaced, the others as before, and the update time |
| StationTypes.DeleteIdempotent | internal/station_type/station_type.go:61-78 | deleting twice leaves the store that deleting once leaves |
| StationTypes.DeleteThenGet | internal/station_type/station_type.go:61-78 | after a delete, Get reports `ErrNotFound` |
| Stations.AddStation | internal/station_type/station.go:29-62 | succeeds exactly when the database constraints admit the row: store up, UUID ids, a station type the id names in any letter case, unused id, 32-bit coordinates; the station returned belongs to the caller and carries the given fields and ids as given; the row stored holds the ids in canonical spelling |
| Stations.RetrieveStation | internal/station_type/station.go:155-185 | `ErrInvalidID` for a malformed id, a wrapped error for a failing store, `ErrStationNotFound` for an absent one; otherwise the stored station the id names in any letter case |
| Stations.RetrieveStationIgnoresCase | internal/station_type/station.go:174-176 | two spellings of one UUID get the same answer from RetrieveStation |
| Stations.AdjustStation | internal/station_type/station.go:66-112 | lookup errors first, then `ErrForbidden` unless the caller owns the station or is an administrator; on success only the station the id names, in any letter case, changes, to the adjusted record |
| Stations.DeleteStation | internal/station_type/station.go:115-128 | a malformed id is `ErrInvalidID`, a failing store a wrapped error; otherwise the station the id names in any letter case is removed, whether or not it existed |
| Stations.ListStations | internal/station_type/station.go:131-152 | a failing store or non-UUID text gives the wrapped `selecting stations` error; otherwise one entry per station of the type the id names in any letter case |
| Stations.StationLookupsIgnoreCase | internal/station_type/station.go:121-145 | two spellings of one UUID delete the same station and list the same stations |
| Stations.ListStationsHoldsOnlyTheType | internal/station_type/station.go:131-152 | every listed station is a stored station of that type, and none is listed twice |
| Stations.ListStationsHoldsEveryStation | internal/station_type/station.go:131-152 | every stored station of the type is listed |
| Stations.CountMatchesListStations | internal/station_type/station_type.go:121-131 | a station type's `stations` count equals the length of its station list |
| Stations.AddThenRetrieve | internal/station_type/station.go:29-62 | what AddStation returns is what RetrieveStation then finds, with its ids in canonical spelling; exactly the returned station when both ids were written in lower case |
| Stations.AddStationIgnoresTags | internal/station_type/station.go:29-62 | the repository does not check the validation tags: whether AddStation succeeds does not depend on name or description |
| Stations.AdjustThenRetrieve | internal/station_type/station.go:79-91 | after AdjustStation the supplied fields are replaced, identity, type, owner and creation time kept, and the update time set |
| Stations.AdjustAllowedIffOwnerOrAdmin | internal/station_type/station.go:72-77 | a stored station with in-range coordinates can be adjusted if and only if the caller is an administrator or its owner |
| Stations.LookupErrorsPrecedeForbidden | internal/station_type/station.go:67-70 | when the lookup fails, every caller gets the same result and it is never `ErrForbidden` |
| Stations.DeleteStationIdempotent | internal/station_type/station.go:115-128 | deleting a station twice equals deleting it once, and it is then not found |
| Accounts.Authenticate | internal/account/account.go:30-56 | success exactly when the store is up, the name is stored and the password verifies; the claims carry the account's id and roles for one hour from `now`; an unknown name and a wrong password give the same `ErrAuthenticationFailure` |
| Accounts.Create | internal/account/account.go:59-89 | a hashing failure is reported before the store is touched; success exactly when the store admits the row; the stored account holds the hash, never the password |
| Accounts.UnknownNameLooksLikeWrongPassword | internal/account/account.go:37-49 | an unknown name and a known name with a wrong password give identical results |
| Accounts.StoreFailureIsNotAuthenticationFailure | internal/account/account.go:39-43 | a failing store is not reported as an authentication failure, even after unwrapping |
| Accounts.CreateThenAuthenticate | internal/account/account.go:48-54 | with a bcrypt whose hashes verify, a created account authenticates with its password |
| Web.Respond | internal/platform/web/response.go:13-37 | 204 sends the status alone; any other status sends the JSON with its content type; data that cannot be marshalled sends nothing and returns the error |
| Web.RespondError | internal/platform/web/response.go:40-63 | a request error under any wraps is answered with its own status, message and fields; anything else with a bare 500 `Internal Server Error`; a reply is always written |
| Web.NoContentIgnoresData | internal/platform/web/response.go:16-19 | a 204 reply has no body and no content type, whatever data is given |
| Web.RespondErrorSeesThroughWraps | internal/platform/web/response.go:44 | wrapping an error does not change the reply to it |
| Web.WrappedRequestErrorKeepsStatus | internal/platform/web/response.go:44-52 | a wrapped request error reaches the client with its own status and message |
| Web.InternalErrorsLookAlike | internal/platform/web/response.go:55-62 | all errors that are not request errors get the same 500 reply |
| StationTypeHandlers.Create | cmd/api/internal/handlers/station_type.go:29-46 | 400 when the body fails to decode or validate; 201 exactly when the store admits the new type, with its JSON as the body; otherwise 500 and the store unchanged |
| StationTypeHandlers.Delete | cmd/api/internal/handlers/station_type.go:49-66 | 400 for a malformed id, 500 for a failing store, otherwise 204 with the type removed |
| StationTypeHandlers.List | cmd/api/internal/handlers/station_type.go:78-89 | 200 with every station type when the store is up, otherwise 500 |
| StationTypeHandlers.Retrieve | cmd/api/internal/handlers/station_type.go:92-112 | 400 malformed id, 500 failing store, 404 unknown id, otherwise 200 with the station type |
| StationTypeHandlers.Update | cmd/api/internal/handlers/station_type.go:116-139 | 400 for an undecodable body or malformed id, 500 failing store, 404 unknown id, otherwise 204 with the update applied |
| StationTypeHandlers.AddStation | cmd/api/internal/handlers/station_type.go:147-170 | missing claims end in a plain error; 400 on decode or validation failure; 201 exactly when the store admits the station, which the caller owns |
| StationTypeHandlers.AdjustStation | cmd/api/internal/handlers/station_type.go:174-205 | missing claims end in a plain error; then 400, 500, 404, 403 for a caller who is neither owner nor administrator, 500 for out-of-range coordinates, otherwise 204 |
| StationTypeHandlers.DeleteStation | cmd/api/internal/handlers/station_type.go:208-225 | 400 malformed id, 500 failing store, otherwise 204 with the station removed |
| StationTypeHandlers.ListStations | cmd/api/internal/handlers/station_type.go:228-241 | no repository error is mapped, so a malformed id is a 500; otherwise 200 with the type's stations |
| StationTypeHandlers.RetrieveStation | cmd/api/internal/handlers/station_type.go:244-264 | 400 malformed id, 500 failing store, 404 unknown id, otherwise 200 with the station |
| StationTypeHandlers.CreateThenRetrieve | cmd/api/internal/handlers/station_type.go:29-112 | a type created with 201 under a lower-case generated id is then retrieved with 200 and the same body |
| StationTypeHandlers.DeleteThenRetrieve | cmd/api/internal/handlers/station_type.go:49-112 | after a 204 delete the type is retrieved with 404, however the id's letters are written |
| StationTypeHandlers.AddStationThenRetrieveStation | cmd/api/internal/handlers/station_type.go:147-264 | a station added with 201 under lower-case ids is then retrieved with 200 and the same body |
| StationTypeHandlers.UnknownTypeListsNothing | cmd/api/internal/handlers/station_type.go:228-241 | listing the stations of an unknown well-formed type answers 200 with an empty array, not 404 |
| StationTypeHandlers.MissingClaimsIsInternal | cmd/api/internal/handlers/station_type.go:152-155 | without claims, adding or adjusting a station leaves the store alone and ends in a 500 |
| AccountHandlers.TokenFor | cmd/api/internal/handlers/account.go:28-63 | missing request values end in a plain error; missing Basic credentials a 401; 200 exactly when authentication and signing succeed, with the token as the only key; 401 exactly for missing credentials or a failed password check |
| AccountHandlers.UnknownNameAndWrongPasswordReplyAlike | cmd/api/internal/handlers/account.go:44-52 | an unknown name and a wrong password get the same 401 reply |
| AccountHandlers.TokenIgnoresClock | cmd/api/internal/handlers/account.go:44 | the token is issued from the request's start time, not from any other clock reading |
| AccountHandlers.CreatedAccountGetsToken | cmd/api/internal/handlers/account.go:44-62 | a freshly created account receives a token signed over its new id and roles |
| Routes.Find | cmd/api/internal/handlers/routes.go:40-69 | the router picks the first route whose method and pattern match, and reports none only when no route matches |
| Routes.Lookup | cmd/api/internal/handlers/routes.go:40-69 | the route picked serves the request, and none is picked only when no route does |
| Routes.SameMethodRoutesAreSeparated | cmd/api/internal/handlers/routes.go:26-69 | no two routes with the same method have patterns one path can match |
| Routes.LookupIsTheOnlyMatch | cmd/api/internal/handlers/routes.go:26-69 | any route that serves a request is the one the router picks |
| Routes.OnlyHealthAndTokenArePublic | cmd/api/internal/handlers/routes.go:26-69 | exactly the health and token routes carry no middleware; every other route authenticates first, once |
| Routes.WritesNeedAdmin | cmd/api/internal/handlers/routes.go:40-69 | a route requires the administrator role if and only if its method is not GET |
| Routes.EveryHandlerRoutedOnce | cmd/api/internal/handlers/routes.go:26-69 | every handler is registered on exactly one route |
| Routes.LoggerSeesEveryRequest | cmd/api/internal/handlers/routes.go:21 | with the logger listed first, every request reaching a route gets exactly one log line with the status the inner chain recorded, even one that authentication, the role check or any inner middleware refuses; the client's reply, the error and the store are the inner chain's |
| Logger.Logged | internal/mid/logger.go:24-50 | without request values: a shutdown error and the handler not run; otherwise the handler's effect unchanged plus one log line with trace id, method, status and path |
| Logger.LoggingIsTransparent | internal/mid/logger.go:37-49 | logging changes neither the reply nor the store |
| Logger.MissingValuesSkipsHandler | internal/mid/logger.go:32-35 | without request values the outcome does not depend on the wrapped handler, nothing is logged, and the error is a shutdown |
| Logger.LoggingTwiceLogsTwice | internal/mid/logger.go:41-46 | wrapping twice appends a second, identical log line |
| Logger.UnrecordedStatusLogsValuesStatus | internal/mid/logger.go:41-46 | when the handler records no status, the line shows the status the request values hold |

## Left out

- Tracing spans, the remote address and latency in the log line, the
  conversion of times to UTC, and the `log` output itself. None of them
  changes a result.
- The parts of `auth`, `web.Decode`, `web.Error` and the `Errors`, `Metrics`,
  `Authenticate` and `HasRole` middleware described above are not part of
  this model. The routes name the route middleware as data; the router does
  not run it.
- The health-check handler (cmd/api/internal/handlers/check.go) is not part of
  this model. It appears in the route table as a target only.
- Fractions of a second. The repository stamps a new record with
  `time.Now()`, which has nanosecond resolution, and returns that value
  unrounded (internal/station_type/station_type.go:36-37,
  internal/station_type/station.go:38-39). The `TIMESTAMP` columns
  (internal/schema/migrate.go:24-25, 41-42) keep only microseconds, so a
  later read returns the date rounded. The model's `Time` is whole seconds,
  which such rounding leaves unchanged. The lines below name the members
  whose promise holds only up to that rounding.
- StationTypes.Create, Stations.AddStation: the returned dates are `now` at
  full resolution, while the stored ones are its microsecond rounding. The
  model stores and returns the same `now`.
- StationTypes.CreateThenGet, Stations.AddThenRetrieve: a later read returns
  the created record's dates rounded to microseconds, not identical to the
  returned ones. The model proves them identical.
- StationTypeHandlers.CreateThenRetrieve,
  StationTypeHandlers.AddStationThenRetrieveStation: the 201 body may print
  up to nine fractional digits of a date and the later 200 body at most six,
  so the two bodies agree only up to that rounding. The model proves them
  identical.
- JSON as text, case-insensitive key matching, fractional numbers and the
  RFC 3339 time format. The JSON value tree stands for the text, and numbers
  are integers.
- Postgres refuses the character U+0000 in a TEXT value, so a name or
  description holding it makes the statement fail. The model accepts such
  text like any other. The lines below name the members this affects.
- Accounts.Create: with U+0000 in the name the source's insert fails (500);
  the model stores the account.
- Accounts.Authenticate: with U+0000 in the name the source's query fails
  (500); the model reports `ErrAuthenticationFailure` (401) or success.
- StationTypes.Create, StationTypes.Update, Stations.AddStation,
  Stations.AdjustStation: text holding U+0000 is stored, where the source's
  statement fails.
- `uuid.Parse` also accepts braced, `urn:uuid:` and 32-digit forms. `ValidId`
  accepts only the canonical 36-character form, which is the form the service
  produces.
- Postgres's own uuid input is wider still. It accepts 32 bare hex digits,
  braces around the whole, and a hyphen after any group of four digits. Two
  paths hand the client's text to Postgres without `uuid.Parse`, and the
  lines below name them. Where Postgres would accept such a spelling, the
  model refuses it as invalid uuid text, which is a 500.
- Stations.AddStation: a station-type id in one of those other spellings is
  refused as invalid text. The source inserts the station when the type
  exists (internal/station_type/station.go:29-62).
- Stations.ListStations: a station-type id in one of those other spellings
  is refused as invalid text. The source lists that type's stations
  (internal/station_type/station.go:131-152).
- StationTypeHandlers.AddStation: for such a type id the model answers 500.
  The source answers as it does for the canonical spelling: 201 when the
  type exists.
- StationTypeHandlers.ListStations: for such a type id the model answers 500.
  The source answers as it does for the canonical spelling: 200 with that
  type's stations.
- A failed `w.Write` after the header is sent. It is treated as never
  happening.
- Timing: requests are modelled one at a time, so concurrent requests are not
  modelled.
- Schema migration and seeding.
- The database error's own text. A database error is modelled by its reason.
- Route matching of chi beyond `/`-separated literal and `{id}` segments. The
  405 and 404 replies for unmatched requests are not modelled either.
- StationTypes.List: the listing order is modelled as ascending id; the SQL
  gives no order, so callers must not depend on it.
- Stations.ListStations: same ordering note as StationTypes.List.
- Accounts.Create: a nil role list is held as an empty list. The source binds
  nil, which the database stores as NULL. The two differ only in the account's
  JSON (`null` against `[]`).
- Web.Quoted: Go's `%q` escapes quotes and control characters inside the id;
  the model only surrounds the id with quotes. The text reaches only the log,
  never the client.
- Logger.Logged: the line records the status the request values hold, and the
  modelled handlers never record one. `web.Respond` as shown takes no
  context.

=== FILE: account.dfy ===
/** Account creation and password authentication.

    bcrypt is outside the model: a `Crypt` value supplies its two operations,
    `hash` (which may fail, as GenerateFromPassword may) and `verify`. */
module Accounts {
  import opened Wrappers
  import opened Uuid
  import opened Errors
  import opened Auth
  import opened AccountModels
  import opened Store

  datatype Crypt = Crypt(hash: string -> Option<Bytes>, verify: (Bytes, string) -> bool)

  /** A hash that was produced for a password verifies against that password. */
  ghost predicate Consistent(crypt: Crypt) {
    forall p :: crypt.hash(p).Some? ==> crypt.verify(crypt.hash(p).value, p)
  }

  /** How long issued claims stay valid. */
  const ClaimsLifetime: int := Hour

  /** Looks the account up by name and checks the password.  An unknown name
      and a wrong password give the same error, so a caller cannot tell which
      names exist. */
  function Authenticate(db: Store, crypt: Crypt, now: Time, name: string, password: string): (r: Result<Claims, Error>)
    ensures !db.online ==> r == Err(Wrapped("selecting single account", Db(Unavailable)))
    ensures db.online && name !in db.accounts ==> r == Err(Sentinel(ErrAuthenticationFailure))
    ensures db.online && name in db.accounts && !crypt.verify(db.accounts[name].passwordHash, password) ==>
      r == Err(Sentinel(ErrAuthenticationFailure))
    ensures r.Ok? <==> db.online && name in db.accounts && crypt.verify(db.accounts[name].passwordHash, password)
    ensures r.Ok? ==>
      && r.value.subject == db.accounts[name].id && r.value.roles == db.accounts[name].roles
      && r.value.issuedAt == now && r.value.expiresAt == now + ClaimsLifetime
  {
    if !db.online then Err(Wrapped("selecting single account", Db(Unavailable)))
    else if name !in db.accounts then Err(Sentinel(ErrAuthenticationFailure))
    else
      var a := db.accounts[name];
      if !crypt.verify(a.passwordHash, password) then Err(Sentinel(ErrAuthenticationFailure))
      else Ok(NewClaims(a.id, a.roles, now, ClaimsLifetime))
  }

  /** Why the database refuses to insert account `a`, if it does. */
  function InsertAccountFault(db: Store, a: Account): Option<DbReason> {
    if !db.online then Some(Unavailable)
    else if !ValidId(a.id) then Some(InvalidUuidText)
    else if a.name in db.accounts || exists n :: n in db.accounts && db.accounts[n].id == a.id then Some(UniqueViolation)
    else None
  }

  /** Creates an account with a freshly generated id, storing the password's
      hash and never the password.  A nil role list is held as an empty one. */
  function Create(db: Store, crypt: Crypt, n: NewAccount, newId: Id, now: Time): (r: Step<Account>)
    ensures crypt.hash(n.password).None? ==> r == Step(db, Err(Wrapped("generating password hash", External("bcrypt"))))
    ensures r.result.Ok? <==>
      && crypt.hash(n.password).Some? && db.online && ValidId(newId) && n.name !in db.accounts
      && (forall k :: k in db.accounts ==> db.accounts[k].id != newId)
    ensures r.result.Ok? ==>
      var a := r.result.value;
      && a.id == newId && a.name == n.name && a.roles == n.roles.GetOr([])
      && Some(a.passwordHash) == crypt.hash(n.password)
      && a.dateCreated == now && a.dateUpdated == now
      && r.db == db.(accounts := db.accounts[n.name := a])
    ensures r.result.Err? ==> r.db == db
    ensures WellFormed(db) ==> WellFormed(r.db)
  {
    match crypt.hash(n.password)
    case None => Step(db, Err(Wrapped("generating password hash", External("bcrypt"))))
    case Some(h) =>
      var a := Account(newId, n.name, n.roles.GetOr([]), h, now, now);
      match InsertAccountFault(db, a)
      case Some(reason) => Step(db, Err(Wrapped("inserting account", Db(reason))))
      case None => Step(db.(accounts := db.accounts[n.name := a]), Ok(a))
  }

  /** The anti-enumeration property: an unknown name and a known name with a
      wrong password produce the very same result. */
  lemma UnknownNameLooksLikeWrongPassword(db: Store, crypt: Crypt, now: Time,
                                          unknown: string, known: string, wrong: string, anyPassword: string)
    requires db.online && unknown !in db.accounts
    requires known in db.accounts && !crypt.verify(db.accounts[known].passwordHash, wrong)
    ensures Authenticate(db, crypt, now, unknown, anyPassword) == Authenticate(db, crypt, now, known, wrong)
  {
  }

  /** A failing database is reported as something other than an authentication failure. */
  lemma StoreFailureIsNotAuthenticationFailure(db: Store, crypt: Crypt, now: Time, name: string, password: string)
    requires !db.online
    ensures Authenticate(db, crypt, now, name, password).Err?
    ensures Authenticate(db, crypt, now, name, password).error != Sentinel(ErrAuthenticationFailure)
    ensures Cause(Authenticate(db, crypt, now, name, password).error) != Sentinel(ErrAuthenticationFailure)
  {
  }

  /** With a consistent bcrypt, the account just created authenticates with
      its own password, as its new id and with its roles. */
  lemma CreateThenAuthenticate(db: Store, crypt: Crypt, n: NewAccount, newId: Id, now: Time, later: Time)
    requires Consistent(crypt)
    requires Create(db, crypt, n, newId, now).result.Ok?
    ensures
      var db' := Create(db, crypt, n, newId, now).db;
      Authenticate(db', crypt, later, n.name, n.password) == Ok(Claims(newId, n.roles.GetOr([]), later, later + Hour))
  {
    var a := Create(db, crypt, n, newId, now).result.value;
    assert crypt.verify(crypt.hash(n.password).value, n.password);
  }
}

=== FILE: account_models.dfy ===
/** The account records: the stored account, whose password hash never
    leaves the server, and what an administrator supplies to create one. */
module AccountModels {
  import opened Wrappers
  import opened Uuid
  import opened Errors
  import opened Json

  /** The bytes bcrypt produces. */
  type Bytes = seq<bv8>

  datatype Account = Account(
    id: Id,
    name: string,
    roles: seq<string>,
    passwordHash: Bytes,
    dateCreated: Time,
    dateUpdated: Time)

  /** `roles` is a Go slice: `None` is the nil slice, `Some([])` an empty one. */
  datatype NewAccount = NewAccount(
    name: string,
    roles: Option<seq<string>>,
    password: string,
    passwordConfirm: string)

  /** The tags on NewAccount: `name` and `password` are `required` (non-empty
      strings), `roles` is `required` (a non-nil slice, possibly empty), and
      `password_confirm` must equal `password` (`eqfield=Password`). */
  predicate ValidNewAccount(n: NewAccount) {
    && n.name != ""
    && n.roles.Some?
    && n.password != ""
    && n.passwordConfirm == n.password
  }

  /** The validator's report for a NewAccount, fields in declaration order. */
  function NewAccountErrors(n: NewAccount): (r: seq<FieldError>)
    ensures r == [] <==> ValidNewAccount(n)
    ensures FieldError("name", "required") in r <==> n.name == ""
    ensures FieldError("roles", "required") in r <==> n.roles.None?
    ensures FieldError("password", "required") in r <==> n.password == ""
    ensures FieldError("password_confirm", "eqfield") in r <==> n.passwordConfirm != n.password
  {
    (if n.name == "" then [FieldError("name", "required")] else [])
    + (if n.roles.None? then [FieldError("roles", "required")] else [])
    + (if n.password == "" then [FieldError("password", "required")] else [])
    + (if n.passwordConfirm != n.password then [FieldError("password_confirm", "eqfield")] else [])
  }

  /** The JSON form of an account: the hash is tagged `json:"-"` and is left out. */
  function AccountJson(a: Account): (j: Json)
    ensures j.Obj? && "password_hash" !in Keys(j.members)
  {
    Obj([
      Member("id", Str(a.id)),
      Member("name", Str(a.name)),
      Member("roles", Arr(seq(|a.roles|, i requires 0 <= i < |a.roles| => Str(a.roles[i])))),
      Member("date_created", Stamp(a.dateCreated)),
      Member("date_updated", Stamp(a.dateUpdated))])
  }

  /** Two accounts that differ only in their password hash look the same in JSON. */
  lemma AccountJsonHidesHash(a: Account, hash: Bytes)
    ensures AccountJson(a.(passwordHash := hash)) == AccountJson(a)
  {
  }

  /** An empty role list is supplied, so it passes `required`; only an absent one fails. */
  lemma EmptyRolesPassRequired(name: string, password: string)
    requires name != "" && password != ""
    ensures ValidNewAccount(NewAccount(name, Some([]), password, password))
    ensures !ValidNewAccount(NewAccount(name, None, password, password))
  {
  }
}

=== FILE: auth.dfy ===
/** The claims an authenticated request carries.  The auth package itself
    (token signing and parsing) is not part of this model; only the shape of
    the claims and the role test the repository relies on are. */
module Auth {
  import opened Uuid

  /** Role names as the seed data stores them. */
  const RoleAdmin: string := "ADMIN"
  const RoleStation: string := "STATION"

  datatype Claims = Claims(subject: Id, roles: seq<string>, issuedAt: Time, expiresAt: Time)

  /** Claims for `subject`, valid from `now` for `validFor`. */
  function NewClaims(subject: Id, roles: seq<string>, now: Time, validFor: int): Claims {
    Claims(subject, roles, now, now + validFor)
  }

  /** The role check is plain membership. */
  predicate HasRole(c: Claims, role: string) {
    role in c.roles
  }
}

=== FILE: decode.dfy ===
/** Reading a request body into one of the client records and checking its
    `validate` tags.  A body that is not JSON, or whose fields have the wrong
    JSON type, is a 400 request error; so is a record that fails its tags,
    which additionally lists the failed fields.  The members are read in
    order, as encoding/json reads them: an absent field keeps the Go zero
    value (a nil pointer in the update records), `null` makes a pointer nil
    and leaves any other field as it was, and a member of the wrong JSON type
    makes the body undecodable even when a later member with the same key is
    well typed. */
module Decode {
  import opened Wrappers
  import opened Uuid
  import opened Errors
  import opened Json
  import opened StationTypeModels
  import opened Web

  const DecodeFailure: Error := RequestError(External("json: cannot decode request body"), StatusBadRequest, [])

  function ValidationFailure(fields: seq<FieldError>): Error {
    RequestError(Plain("field validation error"), StatusBadRequest, fields)
  }

  /** The members a struct is filled from: `null` fills nothing, anything but
      an object is refused. */
  function ObjectMembers(body: Option<Json>): (r: Result<seq<Member>, Error>)
    ensures r.Err? ==> r.error == DecodeFailure
    ensures body == Some(Null) ==> r == Ok([])
  {
    match body
    case None => Err(DecodeFailure)
    case Some(Null) => Ok([])
    case Some(Obj(ms)) => Ok(ms)
    case Some(_) => Err(DecodeFailure)
  }

  /** The Go types of the record fields a body fills. */
  datatype FieldKind = Text | Int64

  /** A JSON value encoding/json stores into a field of that kind; a number
      outside a Go `int` is a type error like any other. */
  predicate Fits(kind: FieldKind, v: Json) {
    match kind
    case Text => v.Str?
    case Int64 => v.Num? && InInt64(v.n)
  }

  /** The value encoding/json leaves in one struct field after reading the
      members in order.  A member with another key is skipped; `null` makes a
      pointer field nil and leaves any other field as it was; a value of the
      field's type is stored; a value of another type is an error, which
      stands whatever follows. */
  function Scan(ms: seq<Member>, key: string, kind: FieldKind, pointer: bool): (r: Result<Option<Json>, Error>)
    ensures r.Err? ==> r.error == DecodeFailure
    ensures r.Ok? && r.value.Some? ==> Fits(kind, r.value.value) && Member(key, r.value.value) in ms
    decreases |ms|
  {
    if ms == [] then Ok(None)
    else
      var prefix := ms[..|ms| - 1];
      var before := Scan(prefix, key, kind, pointer);
      var m := ms[|ms| - 1];
      assert ms == prefix + [m];
      if m.key != key || before.Err? then before
      else if m.value.Null? then (if pointer then Ok(None) else before)
      else if Fits(kind, m.value) then Ok(Some(m.value))
      else Err(DecodeFailure)
  }

  /** Some member with `key` holds a non-null value the field cannot take. */
  predicate IllTyped(ms: seq<Member>, key: string, kind: FieldKind) {
    exists i :: 0 <= i < |ms| && ms[i].key == key && !ms[i].value.Null? && !Fits(kind, ms[i].value)
  }

  /** Reading a field fails exactly when one of its members is ill typed,
      wherever that member stands. */
  lemma {:induction false} ScanFailsExactlyWhenIllTyped(ms: seq<Member>, key: string, kind: FieldKind, pointer: bool)
    ensures Scan(ms, key, kind, pointer).Err? <==> IllTyped(ms, key, kind)
    decreases |ms|
  {
    if ms != [] {
      var prefix := ms[..|ms| - 1];
      ScanFailsExactlyWhenIllTyped(prefix, key, kind, pointer);
      if IllTyped(prefix, key, kind) {
        var i :| 0 <= i < |prefix| && prefix[i].key == key && !prefix[i].value.Null? && !Fits(kind, prefix[i].value);
        assert ms[i] == prefix[i];
      }
      if IllTyped(ms, key, kind) {
        var i :| 0 <= i < |ms| && ms[i].key == key && !ms[i].value.Null? && !Fits(kind, ms[i].value);
        if i < |ms| - 1 {
          assert prefix[i] == ms[i];
        }
      }
    }
  }

  /** Appending a member with another key does not change what `key` reads. */
  lemma ScanSkipsOtherKey(ms: seq<Member>, m: Member, key: string, kind: FieldKind, pointer: bool)
    requires m.key != key
    ensures Scan(ms + [m], key, kind, pointer) == Scan(ms, key, kind, pointer)
  {
    assert (ms + [m])[..|ms + [m]| - 1] == ms;
  }

  /** Appending a well-typed member to members that read without error makes
      its key read that member's value. */
  lemma ScanTakesLast(ms: seq<Member>, m: Member, kind: FieldKind, pointer: bool)
    requires Scan(ms, m.key, kind, pointer).Ok? && Fits(kind, m.value)
    ensures Scan(ms + [m], m.key, kind, pointer) == Ok(Some(m.value))
  {
    assert (ms + [m])[..|ms + [m]| - 1] == ms;
  }

  /** A later `null` leaves a plain field as it was and makes a pointer field nil. */
  lemma LaterNull(ms: seq<Member>, key: string, kind: FieldKind, pointer: bool)
    requires Scan(ms, key, kind, pointer).Ok?
    ensures Scan(ms + [Member(key, Null)], key, kind, pointer) ==
      if pointer then Ok(None) else Scan(ms, key, kind, pointer)
  {
    assert (ms + [Member(key, Null)])[..|ms + [Member(key, Null)]| - 1] == ms;
  }

  /** A string field; on success the string is one a member with `key` holds. */
  function StringField(ms: seq<Member>, key: string, pointer: bool): (r: Result<Option<string>, Error>)
    ensures r.Err? ==> r.error == DecodeFailure
    ensures r.Err? <==> IllTyped(ms, key, Text)
    ensures r.Ok? && r.value.Some? ==> Member(key, Str(r.value.value)) in ms
  {
    ScanFailsExactlyWhenIllTyped(ms, key, Text, pointer);
    var v :- Scan(ms, key, Text, pointer);
    Ok(if v.Some? && v.value.Str? then Some(v.value.s) else None)
  }

  /** An integer field; on success the number fits a Go `int` and is one a
      member with `key` holds. */
  function IntField(ms: seq<Member>, key: string, pointer: bool): (r: Result<Option<int>, Error>)
    ensures r.Err? ==> r.error == DecodeFailure
    ensures r.Err? <==> IllTyped(ms, key, Int64)
    ensures r.Ok? && r.value.Some? ==> InInt64(r.value.value) && Member(key, Num(r.value.value)) in ms
  {
    ScanFailsExactlyWhenIllTyped(ms, key, Int64, pointer);
    var v :- Scan(ms, key, Int64, pointer);
    Ok(if v.Some? && v.value.Num? then Some(v.value.n) else None)
  }

  function DecodeNewStationType(body: Option<Json>): (r: Result<NewStationType, Error>)
    ensures r.Ok? ==> ValidNewStationType(r.value)
    ensures r.Err? ==> r.error.RequestError? && r.error.status == StatusBadRequest
  {
    var ms :- ObjectMembers(body);
    var name :- StringField(ms, "name", false);
    var description :- StringField(ms, "description", false);
    var n := NewStationType(name.GetOr(""), description.GetOr(""));
    var errs := NewStationTypeErrors(n);
    if errs != [] then Err(ValidationFailure(errs)) else Ok(n)
  }

  function DecodeUpdateStationType(body: Option<Json>): (r: Result<UpdateStationType, Error>)
    ensures r.Err? ==> r.error == DecodeFailure
  {
    var ms :- ObjectMembers(body);
    var name :- StringField(ms, "name", true);
    var description :- StringField(ms, "description", true);
    Ok(UpdateStationType(name, description))
  }

  function DecodeNewStation(body: Option<Json>): (r: Result<NewStation, Error>)
    ensures r.Ok? ==> ValidNewStation(r.value) && InInt64(r.value.locationX) && InInt64(r.value.locationY)
    ensures r.Err? ==> r.error.RequestError? && r.error.status == StatusBadRequest
  {
    var ms :- ObjectMembers(body);
    var name :- StringField(ms, "name", false);
    var description :- StringField(ms, "description", false);
    var x :- IntField(ms, "location_x", false);
    var y :- IntField(ms, "location_y", false);
    var n := NewStation(name.GetOr(""), description.GetOr(""), x.GetOr(0), y.GetOr(0));
    var errs := NewStationErrors(n);
    if errs != [] then Err(ValidationFailure(errs)) else Ok(n)
  }

  function DecodeUpdateStation(body: Option<Json>): (r: Result<UpdateStation, Error>)
    ensures r.Err? ==> r.error == DecodeFailure
  {
    var ms :- ObjectMembers(body);
    var name :- StringField(ms, "name", true);
    var description :- StringField(ms, "description", true);
    var x :- IntField(ms, "location_x", true);
    var y :- IntField(ms, "location_y", true);
    Ok(UpdateStation(name, description, x, y))
  }

  /** How a client writes a NewStationType. */
  function NewStationTypeJson(n: NewStationType): Json {
    Obj([Member("name", Str(n.name)), Member("description", Str(n.description))])
  }

  /** How a client writes a station-type update: only the fields it wants changed. */
  function UpdateStationTypeJson(u: UpdateStationType): Json {
    Obj(OptMember("name", StrOpt(u.name)) + OptMember("description", StrOpt(u.description)))
  }

  /** How a client writes a NewStation. */
  function NewStationJson(n: NewStation): Json {
    Obj([Member("name", Str(n.name)), Member("description", Str(n.description)),
         Member("location_x", Num(n.locationX)), Member("location_y", Num(n.locationY))])
  }

  /** How a client writes an update: only the fields it wants changed. */
  function UpdateStationJson(u: UpdateStation): Json {
    Obj(OptMember("name", StrOpt(u.name)) + OptMember("description", StrOpt(u.description))
      + OptMember("location_x", NumOpt(u.locationX)) + OptMember("location_y", NumOpt(u.locationY)))
  }

  /** The members an optional field contributes to a client-written body. */
  function OptMember(key: string, v: Option<Json>): seq<Member> {
    if v.Some? then [Member(key, v.value)] else []
  }

  function StrOpt(o: Option<string>): Option<Json> {
    if o.Some? then Some(Str(o.value)) else None
  }

  function NumOpt(o: Option<int>): Option<Json> {
    if o.Some? then Some(Num(o.value)) else None
  }

  /** An empty object decodes to the zero NewStation, which fails `required`
      on its name: a 400 naming that one field. */
  lemma EmptyObjectIsRejected()
    ensures DecodeNewStation(Some(Obj([]))) == Err(ValidationFailure([FieldError("name", "required")]))
  {
    var zero := NewStation("", "", 0, 0);
    assert NewStationErrors(zero) == [FieldError("name", "required")];
  }

  /** `{"name": "a", "name": null}` creates a station type named "a": the
      later `null` leaves the plain field as it was. */
  lemma LaterNullKeepsPlainField()
    ensures DecodeNewStationType(Some(Obj([Member("name", Str("a")), Member("name", Null)])))
         == Ok(NewStationType("a", ""))
  {
    var m0 := Member("name", Str("a"));
    ScanTakesLast([], m0, Text, false);
    assert [] + [m0] == [m0];
    LaterNull([m0], "name", Text, false);
    assert NewStationTypeErrors(NewStationType("a", "")) == [];
  }

  /** The same body as an update names no field: the later `null` makes the
      pointer nil, so the name is left unchanged. */
  lemma LaterNullClearsPointerField()
    ensures DecodeUpdateStationType(Some(Obj([Member("name", Str("a")), Member("name", Null)])))
         == Ok(UpdateStationType(None, None))
  {
    var m0 := Member("name", Str("a"));
    ScanTakesLast([], m0, Text, true);
    assert [] + [m0] == [m0];
    LaterNull([m0], "name", Text, true);
  }

  /** `{"name": 5, "name": "a"}` is undecodable: the type error stands though
      a well-typed name follows. */
  lemma EarlierTypeErrorStands()
    ensures DecodeNewStationType(Some(Obj([Member("name", Num(5)), Member("name", Str("a"))]))) == Err(DecodeFailure)
  {
    var ms := [Member("name", Num(5)), Member("name", Str("a"))];
    assert ms[0].key == "name" && !Fits(Text, ms[0].value);
    assert IllTyped(ms, "name", Text);
  }

  /** The four keys a station body may carry are pairwise different. */
  lemma StationKeysDistinct()
    ensures "name" != "description" && "name" != "location_x" && "name" != "location_y"
    ensures "description" != "location_x" && "description" != "location_y"
    ensures "location_x" != "location_y"
  {
    assert |"name"| != |"description"| && |"name"| != |"location_x"| && |"description"| != |"location_x"|;
    assert "location_x"[9] != "location_y"[9];
  }

  /** Each field of a client-written NewStation reads back as written. */
  lemma NewStationFieldsReadBack(n: NewStation)
    requires InInt64(n.locationX) && InInt64(n.locationY)
    ensures Scan(NewStationJson(n).members, "name", Text, false) == Ok(Some(Str(n.name)))
    ensures Scan(NewStationJson(n).members, "description", Text, false) == Ok(Some(Str(n.description)))
    ensures Scan(NewStationJson(n).members, "location_x", Int64, false) == Ok(Some(Num(n.locationX)))
    ensures Scan(NewStationJson(n).members, "location_y", Int64, false) == Ok(Some(Num(n.locationY)))
  {
    StationKeysDistinct();
    var m0, m1, m2, m3 := Member("name", Str(n.name)), Member("description", Str(n.description)),
                          Member("location_x", Num(n.locationX)), Member("location_y", Num(n.locationY));
    assert NewStationJson(n).members == [m0, m1, m2] + [m3];
    assert [m0, m1, m2] == [m0, m1] + [m2];
    assert [m0, m1] == [m0] + [m1];
    assert [m0] == [] + [m0];
    ScanTakesLast([], m0, Text, false);
    ScanSkipsOtherKey([m0], m1, "name", Text, false);
    ScanSkipsOtherKey([m0, m1], m2, "name", Text, false);
    ScanSkipsOtherKey([m0, m1, m2], m3, "name", Text, false);
    ScanSkipsOtherKey([], m0, "description", Text, false);
    ScanTakesLast([m0], m1, Text, false);
    ScanSkipsOtherKey([m0, m1], m2, "description", Text, false);
    ScanSkipsOtherKey([m0, m1, m2], m3, "description", Text, false);
    ScanSkipsOtherKey([], m0, "location_x", Int64, false);
    ScanSkipsOtherKey([m0], m1, "location_x", Int64, false);
    ScanTakesLast([m0, m1], m2, Int64, false);
    ScanSkipsOtherKey([m0, m1, m2], m3, "location_x", Int64, false);
    ScanSkipsOtherKey([], m0, "location_y", Int64, false);
    ScanSkipsOtherKey([m0], m1, "location_y", Int64, false);
    ScanSkipsOtherKey([m0, m1], m2, "location_y", Int64, false);
    ScanTakesLast([m0, m1, m2], m3, Int64, false);
  }

  /** A NewStation written by a client decodes to itself exactly when it is
      valid; otherwise the reply lists exactly the failed tags. */
  lemma NewStationRoundTrip(n: NewStation)
    requires InInt64(n.locationX) && InInt64(n.locationY)
    ensures ValidNewStation(n) ==> DecodeNewStation(Some(NewStationJson(n))) == Ok(n)
    ensures !ValidNewStation(n) ==> DecodeNewStation(Some(NewStationJson(n))) == Err(ValidationFailure(NewStationErrors(n)))
  {
    NewStationFieldsReadBack(n);
    var ms := NewStationJson(n).members;
    assert ObjectMembers(Some(NewStationJson(n))) == Ok(ms);
    assert StringField(ms, "name", false) == Ok(Some(n.name));
    assert StringField(ms, "description", false) == Ok(Some(n.description));
    assert IntField(ms, "location_x", false) == Ok(Some(n.locationX));
    assert IntField(ms, "location_y", false) == Ok(Some(n.locationY));
  }

  /** Appending an optional member leaves what another key reads unchanged. */
  lemma ScanPastOpt(ms: seq<Member>, key: string, v: Option<Json>, other: string, kind: FieldKind, pointer: bool)
    requires other != key
    ensures Scan(ms + OptMember(key, v), other, kind, pointer) == Scan(ms, other, kind, pointer)
  {
    if v.Some? {
      ScanSkipsOtherKey(ms, Member(key, v.value), other, kind, pointer);
    } else {
      assert ms + OptMember(key, v) == ms;
    }
  }

  /** Appending an optional well-typed member to members that read without
      error: its key reads it, or reads as before when it is absent. */
  lemma ScanOfOpt(ms: seq<Member>, key: string, v: Option<Json>, kind: FieldKind, pointer: bool)
    requires Scan(ms, key, kind, pointer).Ok?
    requires v.Some? ==> Fits(kind, v.value)
    ensures Scan(ms + OptMember(key, v), key, kind, pointer) ==
      if v.Some? then Ok(v) else Scan(ms, key, kind, pointer)
  {
    if v.Some? {
      ScanTakesLast(ms, Member(key, v.value), kind, pointer);
    } else {
      assert ms + OptMember(key, v) == ms;
    }
  }

  /** The members of an update body, field by field. */
  function UpdateMembers(v0: Option<Json>, v1: Option<Json>, v2: Option<Json>, v3: Option<Json>): seq<Member> {
    OptMember("name", v0) + OptMember("description", v1) + OptMember("location_x", v2) + OptMember("location_y", v3)
  }

  /** The name of an update body reads as written. */
  lemma UpdateNameReadBack(v0: Option<Json>, v1: Option<Json>, v2: Option<Json>, v3: Option<Json>)
    requires v0.Some? ==> Fits(Text, v0.value)
    ensures Scan(UpdateMembers(v0, v1, v2, v3), "name", Text, true) == Ok(v0)
  {
    StationKeysDistinct();
    var s0 := OptMember("name", v0);
    var s1 := s0 + OptMember("description", v1);
    var s2 := s1 + OptMember("location_x", v2);
    assert s0 == [] + OptMember("name", v0);
    ScanOfOpt([], "name", v0, Text, true);
    ScanPastOpt(s0, "description", v1, "name", Text, true);
    ScanPastOpt(s1, "location_x", v2, "name", Text, true);
    ScanPastOpt(s2, "location_y", v3, "name", Text, true);
  }

  /** The description of an update body reads as written. */
  lemma UpdateDescriptionReadBack(v0: Option<Json>, v1: Option<Json>, v2: Option<Json>, v3: Option<Json>)
    requires v1.Some? ==> Fits(Text, v1.value)
    ensures Scan(UpdateMembers(v0, v1, v2, v3), "description", Text, true) == Ok(v1)
  {
    StationKeysDistinct();
    var s0 := OptMember("name", v0);
    var s1 := s0 + OptMember("description", v1);
    var s2 := s1 + OptMember("location_x", v2);
    assert s0 == [] + OptMember("name", v0);
    ScanPastOpt([], "name", v0, "description", Text, true);
    ScanOfOpt(s0, "description", v1, Text, true);
    ScanPastOpt(s1, "location_x", v2, "description", Text, true);
    ScanPastOpt(s2, "location_y", v3, "description", Text, true);
  }

  /** The x coordinate of an update body reads as written. */
  lemma UpdateLocationXReadBack(v0: Option<Json>, v1: Option<Json>, v2: Option<Json>, v3: Option<Json>)
    requires v2.Some? ==> Fits(Int64, v2.value)
    ensures Scan(UpdateMembers(v0, v1, v2, v3), "location_x", Int64, true) == Ok(v2)
  {
    StationKeysDistinct();
    var s0 := OptMember("name", v0);
    var s1 := s0 + OptMember("description", v1);
    var s2 := s1 + OptMember("location_x", v2);
    assert s0 == [] + OptMember("name", v0);
    ScanPastOpt([], "name", v0, "location_x", Int64, true);
    ScanPastOpt(s0, "description", v1, "location_x", Int64, true);
    ScanOfOpt(s1, "location_x", v2, Int64, true);
    ScanPastOpt(s2, "location_y", v3, "location_x", Int64, true);
  }

  /** The y coordinate of an update body reads as written. */
  lemma UpdateLocationYReadBack(v0: Option<Json>, v1: Option<Json>, v2: Option<Json>, v3: Option<Json>)
    requires v3.Some? ==> Fits(Int64, v3.value)
    ensures Scan(UpdateMembers(v0, v1, v2, v3), "location_y", Int64, true) == Ok(v3)
  {
    StationKeysDistinct();
    var s0 := OptMember("name", v0);
    var s1 := s0 + OptMember("description", v1);
    var s2 := s1 + OptMember("location_x", v2);
    assert s0 == [] + OptMember("name", v0);
    ScanPastOpt([], "name", v0, "location_y", Int64, true);
    ScanPastOpt(s0, "description", v1, "location_y", Int64, true);
    ScanPastOpt(s1, "location_x", v2, "location_y", Int64, true);
    ScanOfOpt(s2, "location_y", v3, Int64, true);
  }

  /** Each field of a client-written update reads back as written, absent ones as absent. */
  lemma UpdateStationFieldsReadBack(u: UpdateStation)
    requires u.locationX.Some? ==> InInt64(u.locationX.value)
    requires u.locationY.Some? ==> InInt64(u.locationY.value)
    ensures Scan(UpdateStationJson(u).members, "name", Text, true) == Ok(StrOpt(u.name))
    ensures Scan(UpdateStationJson(u).members, "description", Text, true) == Ok(StrOpt(u.description))
    ensures Scan(UpdateStationJson(u).members, "location_x", Int64, true) == Ok(NumOpt(u.locationX))
    ensures Scan(UpdateStationJson(u).members, "location_y", Int64, true) == Ok(NumOpt(u.locationY))
  {
    var v0, v1, v2, v3 := StrOpt(u.name), StrOpt(u.description), NumOpt(u.locationX), NumOpt(u.locationY);
    assert UpdateStationJson(u).members == UpdateMembers(v0, v1, v2, v3);
    UpdateNameReadBack(v0, v1, v2, v3);
    UpdateDescriptionReadBack(v0, v1, v2, v3);
    UpdateLocationXReadBack(v0, v1, v2, v3);
    UpdateLocationYReadBack(v0, v1, v2, v3);
  }

  /** Whatever the object looks like, it decodes to `u` when its four fields read as `u`'s. */
  lemma DecodeUpdateFromFields(ms: seq<Member>, u: UpdateStation)
    requires Scan(ms, "name", Text, true) == Ok(StrOpt(u.name))
    requires Scan(ms, "description", Text, true) == Ok(StrOpt(u.description))
    requires Scan(ms, "location_x", Int64, true) == Ok(NumOpt(u.locationX))
    requires Scan(ms, "location_y", Int64, true) == Ok(NumOpt(u.locationY))
    ensures DecodeUpdateStation(Some(Obj(ms))) == Ok(u)
  {
    assert StringField(ms, "name", true) == Ok(u.name);
    assert StringField(ms, "description", true) == Ok(u.description);
    assert IntField(ms, "location_x", true) == Ok(u.locationX);
    assert IntField(ms, "location_y", true) == Ok(u.locationY);
  }

  /** An update written by a client decodes to itself: absent fields stay absent. */
  lemma UpdateStationRoundTrip(u: UpdateStation)
    requires u.locationX.Some? ==> InInt64(u.locationX.value)
    requires u.locationY.Some? ==> InInt64(u.locationY.value)
    ensures DecodeUpdateStation(Some(UpdateStationJson(u))) == Ok(u)
  {
    UpdateStationFieldsReadBack(u);
    DecodeUpdateFromFields(UpdateStationJson(u).members, u);
  }

  /** A NewStationType written by a client decodes to itself exactly when it
      is valid; otherwise the reply lists exactly the failed tags. */
  lemma NewStationTypeRoundTrip(n: NewStationType)
    ensures ValidNewStationType(n) ==> DecodeNewStationType(Some(NewStationTypeJson(n))) == Ok(n)
    ensures !ValidNewStationType(n) ==>
      DecodeNewStationType(Some(NewStationTypeJson(n))) == Err(ValidationFailure(NewStationTypeErrors(n)))
  {
    StationKeysDistinct();
    var m0, m1 := Member("name", Str(n.name)), Member("description", Str(n.description));
    var ms := NewStationTypeJson(n).members;
    assert ms == [m0] + [m1];
    assert [m0] == [] + [m0];
    ScanTakesLast([], m0, Text, false);
    ScanSkipsOtherKey([m0], m1, "name", Text, false);
    ScanSkipsOtherKey([], m0, "description", Text, false);
    ScanTakesLast([m0], m1, Text, false);
    assert StringField(ms, "name", false) == Ok(Some(n.name));
    assert StringField(ms, "description", false) == Ok(Some(n.description));
  }

  /** A station-type update written by a client decodes to itself: absent
      fields stay absent, so they are left unchanged. */
  lemma UpdateStationTypeRoundTrip(u: UpdateStationType)
    ensures DecodeUpdateStationType(Some(UpdateStationTypeJson(u))) == Ok(u)
  {
    StationKeysDistinct();
    var v0, v1 := StrOpt(u.name), StrOpt(u.description);
    var s0 := OptMember("name", v0);
    var ms := s0 + OptMember("description", v1);
    assert UpdateStationTypeJson(u).members == ms;
    assert s0 == [] + OptMember("name", v0);
    ScanOfOpt([], "name", v0, Text, true);
    ScanPastOpt(s0, "description", v1, "name", Text, true);
    ScanPastOpt([], "name", v0, "description", Text, true);
    ScanOfOpt(s0, "description", v1, Text, true);
    assert StringField(ms, "name", true) == Ok(u.name);
    assert StringField(ms, "description", true) == Ok(u.description);
  }
}

=== FILE: errors.dfy ===
/** The error values that flow from the repositories through the handlers to
    the responder, in the shape Go gives them: package-level sentinels created
    with `errors.New`, inline `errors.New` values, `errors.Wrap` layers, the web
    package's request error carrying an HTTP status, and the shutdown error. */
module Errors {

  /** The package-level error values callers compare against with `==`. */
  datatype Sentinel =
    | ErrNotFound               // station type not found
    | ErrInvalidID              // id is not a UUID
    | ErrStationNotFound        // station not found
    | ErrForbidden              // owner-or-admin rule refused the caller
    | ErrAuthenticationFailure  // unknown name or wrong password, deliberately the same

  /** Why the database refused a statement. */
  datatype DbReason =
    | Unavailable        // connection or server failure, anything but "no rows"
    | InvalidUuidText    // text bound to a UUID column is not a UUID
    | IntegerOutOfRange  // value bound to an INT column does not fit 32 bits
    | UniqueViolation    // primary or unique key already present
    | ForeignKeyViolation // station names a station type that does not exist

  /** One failed validation tag, reported under the field's JSON name. */
  datatype FieldError = FieldError(field: string, tag: string)

  datatype Error =
    | Sentinel(which: Sentinel)
    | Plain(msg: string)                    // errors.New at the point of failure
    | Wrapped(context: string, cause: Error) // errors.Wrap / errors.Wrapf
    | RequestError(err: Error, status: int, fields: seq<FieldError>) // *web.Error
    | Shutdown(msg: string)                 // web.NewShutdownError
    | Db(reason: DbReason)                  // error returned by the database driver
    | External(detail: string)              // error from a library outside the model (JSON, bcrypt, JWT)

  function SentinelText(s: Sentinel): string {
    match s
    case ErrNotFound => "station type not found"
    case ErrInvalidID => "ID is not in its proper UUID format"
    case ErrStationNotFound => "station not found"
    case ErrForbidden => "Attempted action is not allowed"
    case ErrAuthenticationFailure => "Authentication failed"
  }

  /** Go's `err.Error()`: a wrap prefixes its context and ": " to the cause's
      text, and a request error shows the text of the error it carries. */
  function Message(e: Error): string {
    match e
    case Sentinel(s) => SentinelText(s)
    case Plain(m) => m
    case Wrapped(c, inner) => c + ": " + Message(inner)
    case RequestError(inner, _, _) => Message(inner)
    case Shutdown(m) => m
    case Db(_) => "database error"
    case External(d) => d
  }

  /** `errors.Cause`: strip every wrap layer.  A request error is not a wrap,
      so unwrapping stops at it. */
  function Cause(e: Error): (c: Error)
    ensures !c.Wrapped?
    ensures !e.Wrapped? ==> c == e
  {
    match e
    case Wrapped(_, inner) => Cause(inner)
    case _ => e
  }

  /** `e` wrapped once for every context in `contexts`, innermost first. */
  function WrapAll(e: Error, contexts: seq<string>): Error
    decreases |contexts|
  {
    if contexts == [] then e else Wrapped(contexts[|contexts| - 1], WrapAll(e, contexts[..|contexts| - 1]))
  }

  /** However many times an error is wrapped, its cause is the cause of the original. */
  lemma {:induction false} CauseOfWrapAll(e: Error, contexts: seq<string>)
    ensures Cause(WrapAll(e, contexts)) == Cause(e)
    decreases |contexts|
  {
    if contexts != [] {
      CauseOfWrapAll(e, contexts[..|contexts| - 1]);
    }
  }

  /** The wrapped text keeps the original text as its suffix. */
  lemma {:induction false} MessageOfWrapAllEndsWithOriginal(e: Error, contexts: seq<string>)
    ensures |Message(e)| <= |Message(WrapAll(e, contexts))|
    ensures Message(WrapAll(e, contexts))[|Message(WrapAll(e, contexts))| - |Message(e)|..] == Message(e)
    decreases |contexts|
  {
    if contexts != [] {
      MessageOfWrapAllEndsWithOriginal(e, contexts[..|contexts| - 1]);
    }
  }
}

=== FILE: handlers_account.dfy ===
/** The account handler: GET /v1/account/token exchanges Basic credentials for
    a signed token.  Token signing is outside the model; `sign` stands for the
    authenticator's GenerateToken. */
module AccountHandlers {
  import opened Wrappers
  import opened Uuid
  import opened Errors
  import opened Json
  import opened Auth
  import opened Store
  import opened Web
  import opened AccountModels
  import Accounts

  /** Signs claims into a token, or fails with the signing library's message. */
  type Signer = Claims -> Result<string, string>

  /** The claims a successful sign-in issues: the account's id and roles,
      valid for one hour from the request's start. */
  function IssuedClaims(db: Store, name: string, start: Time): Claims
    requires name in db.accounts
  {
    Claims(db.accounts[name].id, db.accounts[name].roles, start, start + Hour)
  }

  /** The token handler for a given password check and signer.  The clock is
      the request's start time, never `env.now`. */
  function TokenFor(crypt: Accounts.Crypt, sign: Signer, ctx: Ctx, req: Request, env: Env, db: Store): (e: Effect)
    ensures e.db == db
    ensures ctx.values.None? ==> e == Returned(db, Plain("web value missing from context"))
    ensures ctx.values.Some? && req.basicAuth.None? ==>
      ClientReply(e) == Some(Reply(StatusUnauthorized, Some(JsonContentType),
        Some(Obj([Member("error", Str("must provide name and password in Basic auth"))]))))
    ensures ClientStatus(e) == StatusOK <==>
      && ctx.values.Some? && req.basicAuth.Some? && db.online
      && var c := req.basicAuth.value;
      && c.name in db.accounts && crypt.verify(db.accounts[c.name].passwordHash, c.password)
      && sign(IssuedClaims(db, c.name, ctx.values.value.start)).Ok?
    ensures ClientStatus(e) == StatusUnauthorized <==>
      && ctx.values.Some?
      && (req.basicAuth.None? ||
          var c := req.basicAuth.value;
          db.online && (c.name !in db.accounts || !crypt.verify(db.accounts[c.name].passwordHash, c.password)))
    ensures ClientStatus(e) in {StatusOK, StatusUnauthorized, StatusInternalServerError}
    ensures ClientStatus(e) == StatusOK ==>
      var c := req.basicAuth.value;
      ClientReply(e).value.body == Some(Obj([Member("token", Str(sign(IssuedClaims(db, c.name, ctx.values.value.start)).value))]))
  {
    match ctx.values
    case None => Returned(db, Plain("web value missing from context"))
    case Some(v) =>
      match req.basicAuth
      case None =>
        assert [Member("error", Str("must provide name and password in Basic auth"))] + []
            == [Member("error", Str("must provide name and password in Basic auth"))];
        Returned(db, RequestError(Plain("must provide name and password in Basic auth"), StatusUnauthorized, []))
      case Some(c) =>
        match Accounts.Authenticate(db, crypt, v.start, c.name, c.password)
        case Err(Sentinel(ErrAuthenticationFailure)) =>
          Returned(db, RequestError(Sentinel(ErrAuthenticationFailure), StatusUnauthorized, []))
        case Err(err) => ReturnedWrapped(db, "authenticating", err)
        case Ok(claims) =>
          match sign(claims)
          case Err(detail) => ReturnedWrapped(db, "generating token", External(detail))
          case Ok(t) => Wrote(db, Respond(Data(Obj([Member("token", Str(t))])), StatusOK))
  }

  /** The token handler as a route handler. */
  function Token(crypt: Accounts.Crypt, sign: Signer): Handler {
    (ctx: Ctx, req: Request, env: Env, db: Store) => TokenFor(crypt, sign, ctx, req, env, db)
  }

  /** A client cannot tell an unknown name from a wrong password: both get
      the same 401 reply. */
  lemma UnknownNameAndWrongPasswordReplyAlike(crypt: Accounts.Crypt, sign: Signer, ctx: Ctx, env: Env, db: Store,
                                              unknown: Request, wrong: Request)
    requires ctx.values.Some? && db.online
    requires unknown.basicAuth.Some? && unknown.basicAuth.value.name !in db.accounts
    requires wrong.basicAuth.Some? && wrong.basicAuth.value.name in db.accounts
    requires !crypt.verify(db.accounts[wrong.basicAuth.value.name].passwordHash, wrong.basicAuth.value.password)
    ensures ClientReply(Token(crypt, sign)(ctx, unknown, env, db)) == ClientReply(Token(crypt, sign)(ctx, wrong, env, db))
    ensures ClientStatus(Token(crypt, sign)(ctx, unknown, env, db)) == StatusUnauthorized
  {
    var c1, c2 := unknown.basicAuth.value, wrong.basicAuth.value;
    Accounts.UnknownNameLooksLikeWrongPassword(db, crypt, ctx.values.value.start, c1.name, c2.name, c2.password, c1.password);
  }

  /** The reply depends on the request's start time, not on the clock reading
      the handler is given. */
  lemma TokenIgnoresClock(crypt: Accounts.Crypt, sign: Signer, ctx: Ctx, req: Request, env1: Env, env2: Env, db: Store)
    ensures Token(crypt, sign)(ctx, req, env1, db) == Token(crypt, sign)(ctx, req, env2, db)
  {
  }

  /** With a consistent password hash, an account just created gets a token
      for its own name and password, signed over its new id and roles. */
  lemma CreatedAccountGetsToken(crypt: Accounts.Crypt, sign: Signer, n: NewAccount, newId: Id, now: Time,
                                ctx: Ctx, req: Request, env: Env, db: Store)
    requires Accounts.Consistent(crypt)
    requires Accounts.Create(db, crypt, n, newId, now).result.Ok?
    requires ctx.values.Some? && req.basicAuth == Some(Credentials(n.name, n.password))
    ensures
      var db' := Accounts.Create(db, crypt, n, newId, now).db;
      var claims := Claims(newId, n.roles.GetOr([]), ctx.values.value.start, ctx.values.value.start + Hour);
      sign(claims).Ok? ==>
        ClientReply(Token(crypt, sign)(ctx, req, env, db')) ==
          Some(Reply(StatusOK, Some(JsonContentType), Some(Obj([Member("token", Str(sign(claims).value))]))))
  {
    Accounts.CreateThenAuthenticate(db, crypt, n, newId, now, ctx.values.value.start);
  }
}

=== FILE: handlers_station_type.dfy ===
/** The HTTP handlers for station types and stations.  Each handler reads the
    `{id}` URL parameter and the body, calls the repository, and either
    responds or returns an error: the repository's package-level errors
    become request errors with their HTTP status, anything else is wrapped
    with what the handler was doing and ends as a 500. */
module StationTypeHandlers {
  import opened Wrappers
  import opened Uuid
  import opened Errors
  import opened Json
  import opened Auth
  import opened StationTypeModels
  import opened Store
  import opened Web
  import opened Decode
  import StationTypes
  import Stations

  function StationTypesJson(list: seq<StationType>): Json {
    Arr(seq(|list|, i requires 0 <= i < |list| => StationTypeJson(list[i])))
  }

  function StationsJson(list: seq<Station>): Json {
    Arr(seq(|list|, i requires 0 <= i < |list| => StationJson(list[i])))
  }

  /** POST /v1/station-type: decodes and validates the body, stores the new
      station type and answers 201 with it. */
  function Create(ctx: Ctx, req: Request, env: Env, db: Store): (e: Effect)
    ensures DecodeNewStationType(req.body).Err? ==> e.db == db && ClientStatus(e) == StatusBadRequest
    ensures ClientStatus(e) == StatusCreated <==>
      DecodeNewStationType(req.body).Ok? && db.online && ValidId(env.newId) && Canonical(env.newId) !in db.types
    ensures ClientStatus(e) == StatusCreated ==>
      var n := DecodeNewStationType(req.body).value;
      var key := Canonical(env.newId);
      && e.db == db.(types := db.types[key := TypeRow(key, n.name, n.description, env.now, env.now)])
      && ClientReply(e).value.body == Some(StationTypeJson(StationType(env.newId, n.name, n.description, 0, env.now, env.now)))
    ensures ClientStatus(e) != StatusCreated ==> e.db == db
    ensures ClientStatus(e) in {StatusCreated, StatusBadRequest, StatusInternalServerError}
  {
    match DecodeNewStationType(req.body)
    case Err(err) => ReturnedWrapped(db, "decoding new station type", err)
    case Ok(nst) =>
      var step := StationTypes.Create(db, nst, env.newId, env.now);
      match step.result
      case Err(err) => ReturnedWrapped(step.db, "creating new station type", err)
      case Ok(st) => Wrote(step.db, Respond(Data(StationTypeJson(st)), StatusCreated))
  }

  /** DELETE /v1/station-type/{id}: a malformed id is a 400, a failing store a
      500; otherwise 204, whether or not the station type existed. */
  function Delete(ctx: Ctx, req: Request, env: Env, db: Store): (e: Effect)
    ensures ClientStatus(e) ==
      if !ValidId(req.id) then StatusBadRequest
      else if !db.online then StatusInternalServerError
      else StatusNoContent
    ensures ClientStatus(e) == StatusNoContent ==> e.db == StationTypes.Delete(db, req.id).db && Canonical(req.id) !in e.db.types
    ensures ClientStatus(e) != StatusNoContent ==> e.db == db
  {
    var step := StationTypes.Delete(db, req.id);
    match step.result
    case Err(Sentinel(ErrInvalidID)) => Returned(step.db, RequestError(Sentinel(ErrInvalidID), StatusBadRequest, []))
    case Err(err) => ReturnedWrapped(step.db, "deleting station type " + Quoted(req.id), err)
    case Ok(_) => Wrote(step.db, Respond(Data(Null), StatusNoContent))
  }

  /** GET /v1/station-types: every station type, or a 500 when the store fails. */
  function List(ctx: Ctx, req: Request, env: Env, db: Store): (e: Effect)
    ensures e.db == db
    ensures ClientStatus(e) == if db.online then StatusOK else StatusInternalServerError
    ensures db.online ==> ClientReply(e).value.body == Some(StationTypesJson(StationTypes.List(db).value))
  {
    match StationTypes.List(db)
    case Err(err) => ReturnedWrapped(db, "getting station type list", err)
    case Ok(list) => Wrote(db, Respond(Data(StationTypesJson(list)), StatusOK))
  }

  /** GET /v1/station-type/{id}: 400 for a malformed id, 404 for an unknown
      one, 500 when the store fails, and otherwise 200 with the station type. */
  function Retrieve(ctx: Ctx, req: Request, env: Env, db: Store): (e: Effect)
    ensures e.db == db
    ensures ClientStatus(e) ==
      if !ValidId(req.id) then StatusBadRequest
      else if !db.online then StatusInternalServerError
      else if Canonical(req.id) !in db.types then StatusNotFound
      else StatusOK
    ensures ClientStatus(e) == StatusOK ==> ClientReply(e).value.body == Some(StationTypeJson(View(db, Canonical(req.id))))
  {
    match StationTypes.Get(db, req.id)
    case Err(Sentinel(ErrNotFound)) => Returned(db, RequestError(Sentinel(ErrNotFound), StatusNotFound, []))
    case Err(Sentinel(ErrInvalidID)) => Returned(db, RequestError(Sentinel(ErrInvalidID), StatusBadRequest, []))
    case Err(err) => ReturnedWrapped(db, "getting station type " + Quoted(req.id), err)
    case Ok(st) => Wrote(db, Respond(Data(StationTypeJson(st)), StatusOK))
  }

  /** PUT /v1/station-type/{id}: decodes the partial update and applies it;
      204 on success. */
  function Update(ctx: Ctx, req: Request, env: Env, db: Store): (e: Effect)
    ensures ClientStatus(e) ==
      if DecodeUpdateStationType(req.body).Err? || !ValidId(req.id) then StatusBadRequest
      else if !db.online then StatusInternalServerError
      else if Canonical(req.id) !in db.types then StatusNotFound
      else StatusNoContent
    ensures ClientStatus(e) == StatusNoContent ==>
      e.db == StationTypes.Update(db, req.id, DecodeUpdateStationType(req.body).value, env.now).db
    ensures ClientStatus(e) != StatusNoContent ==> e.db == db
  {
    match DecodeUpdateStationType(req.body)
    case Err(err) => ReturnedWrapped(db, "decoding station type update", err)
    case Ok(update) =>
      var step := StationTypes.Update(db, req.id, update, env.now);
      match step.result
      case Err(Sentinel(ErrNotFound)) => Returned(step.db, RequestError(Sentinel(ErrNotFound), StatusNotFound, []))
      case Err(Sentinel(ErrInvalidID)) => Returned(step.db, RequestError(Sentinel(ErrInvalidID), StatusBadRequest, []))
      case Err(err) => ReturnedWrapped(step.db, "updating station type " + Quoted(req.id), err)
      case Ok(_) => Wrote(step.db, Respond(Data(Null), StatusNoContent))
  }

  /** POST /v1/station-type/{id}/station: needs the caller's claims, decodes
      and validates the body, and stores the station under the caller's
      account; 201 with the station. */
  function AddStation(ctx: Ctx, req: Request, env: Env, db: Store): (e: Effect)
    ensures ctx.claims.None? ==> e == Returned(db, Plain("claims missing from context"))
    ensures ctx.claims.Some? && DecodeNewStation(req.body).Err? ==> e.db == db && ClientStatus(e) == StatusBadRequest
    ensures ClientStatus(e) == StatusCreated <==>
      && ctx.claims.Some? && DecodeNewStation(req.body).Ok? && db.online && ValidId(env.newId)
      && ValidId(req.id) && Canonical(req.id) in db.types && Canonical(env.newId) !in db.stations
      && InInt32(DecodeNewStation(req.body).value.locationX) && InInt32(DecodeNewStation(req.body).value.locationY)
    ensures ClientStatus(e) == StatusCreated ==>
      var key := Canonical(env.newId);
      && e.db.stations.Keys == db.stations.Keys + {key} && e.db.stations[key].accountId == ctx.claims.value.subject
      && e.db.stations[key].stationTypeId == Canonical(req.id)
      && ClientReply(e).value.body == Some(StationJson(e.db.stations[key].(id := env.newId, stationTypeId := req.id)))
    ensures ClientStatus(e) != StatusCreated ==> e.db == db
    ensures ClientStatus(e) in {StatusCreated, StatusBadRequest, StatusInternalServerError}
  {
    match ctx.claims
    case None => Returned(db, Plain("claims missing from context"))
    case Some(claims) =>
      match DecodeNewStation(req.body)
      case Err(err) => ReturnedWrapped(db, "decoding new station", err)
      case Ok(ns) =>
        var step := Stations.AddStation(db, claims, ns, req.id, env.newId, env.now);
        match step.result
        case Err(err) => ReturnedWrapped(step.db, "adding new sale", err)
        case Ok(s) => Wrote(step.db, Respond(Data(StationJson(s)), StatusCreated))
  }

  /** PUT /v1/station/{id}: needs the caller's claims; applies the partial
      update when the caller owns the station or is an administrator. */
  function AdjustStation(ctx: Ctx, req: Request, env: Env, db: Store): (e: Effect)
    ensures ctx.claims.None? ==> e == Returned(db, Plain("claims missing from context"))
    ensures ctx.claims.Some? ==>
      var update := DecodeUpdateStation(req.body);
      ClientStatus(e) == (
        if update.Err? || !ValidId(req.id) then StatusBadRequest
        else if !db.online then StatusInternalServerError
        else if Canonical(req.id) !in db.stations then StatusNotFound
        else
          var s := db.stations[Canonical(req.id)];
          if !Stations.MayAdjust(ctx.claims.value, s) then StatusForbidden
          else if !InInt32(update.value.locationX.GetOr(s.locationX))
               || !InInt32(update.value.locationY.GetOr(s.locationY)) then StatusInternalServerError
          else StatusNoContent)
    ensures ClientStatus(e) == StatusNoContent ==>
      var key := Canonical(req.id);
      e.db == db.(stations := db.stations[key := Stations.Adjusted(db.stations[key], DecodeUpdateStation(req.body).value, env.now)])
    ensures ClientStatus(e) != StatusNoContent ==> e.db == db
  {
    match ctx.claims
    case None => Returned(db, Plain("claims missing from context"))
    case Some(claims) =>
      match DecodeUpdateStation(req.body)
      case Err(err) => ReturnedWrapped(db, "decoding station update", err)
      case Ok(update) =>
        var step := Stations.AdjustStation(db, claims, req.id, update, env.now);
        match step.result
        case Err(Sentinel(ErrStationNotFound)) => Returned(step.db, RequestError(Sentinel(ErrStationNotFound), StatusNotFound, []))
        case Err(Sentinel(ErrInvalidID)) => Returned(step.db, RequestError(Sentinel(ErrInvalidID), StatusBadRequest, []))
        case Err(Sentinel(ErrForbidden)) => Returned(step.db, RequestError(Sentinel(ErrForbidden), StatusForbidden, []))
        case Err(err) => ReturnedWrapped(step.db, "updating station " + Quoted(req.id), err)
        case Ok(_) => Wrote(step.db, Respond(Data(Null), StatusNoContent))
  }

  /** DELETE /v1/station/{id}: 400 for a malformed id, 500 when the store
      fails, otherwise 204 whether or not the station existed. */
  function DeleteStation(ctx: Ctx, req: Request, env: Env, db: Store): (e: Effect)
    ensures ClientStatus(e) ==
      if !ValidId(req.id) then StatusBadRequest
      else if !db.online then StatusInternalServerError
      else StatusNoContent
    ensures ClientStatus(e) == StatusNoContent ==> e.db == db.(stations := db.stations - {Canonical(req.id)})
    ensures ClientStatus(e) != StatusNoContent ==> e.db == db
  {
    var step := Stations.DeleteStation(db, req.id);
    match step.result
    case Err(Sentinel(ErrInvalidID)) => Returned(step.db, RequestError(Sentinel(ErrInvalidID), StatusBadRequest, []))
    case Err(err) => ReturnedWrapped(step.db, "deleting station " + Quoted(req.id), err)
    case Ok(_) => Wrote(step.db, Respond(Data(Null), StatusNoContent))
  }

  /** GET /v1/station-type/{id}/stations: the stations of one type.  No
      error is mapped to a request error, so a malformed id is a 500 and an
      unknown type is an empty list. */
  function ListStations(ctx: Ctx, req: Request, env: Env, db: Store): (e: Effect)
    ensures e.db == db
    ensures ClientStatus(e) == if db.online && ValidId(req.id) then StatusOK else StatusInternalServerError
    ensures ClientStatus(e) == StatusOK ==> ClientReply(e).value.body == Some(StationsJson(Stations.ListStations(db, req.id).value))
  {
    match Stations.ListStations(db, req.id)
    case Err(err) => ReturnedWrapped(db, "getting sales list", err)
    case Ok(list) => Wrote(db, Respond(Data(StationsJson(list)), StatusOK))
  }

  /** GET /v1/station/{id}: 400 for a malformed id, 404 for an unknown one,
      500 when the store fails, otherwise 200 with the station. */
  function RetrieveStation(ctx: Ctx, req: Request, env: Env, db: Store): (e: Effect)
    ensures e.db == db
    ensures ClientStatus(e) ==
      if !ValidId(req.id) then StatusBadRequest
      else if !db.online then StatusInternalServerError
      else if Canonical(req.id) !in db.stations then StatusNotFound
      else StatusOK
    ensures ClientStatus(e) == StatusOK ==> ClientReply(e).value.body == Some(StationJson(db.stations[Canonical(req.id)]))
  {
    match Stations.RetrieveStation(db, req.id)
    case Err(Sentinel(ErrStationNotFound)) => Returned(db, RequestError(Sentinel(ErrStationNotFound), StatusNotFound, []))
    case Err(Sentinel(ErrInvalidID)) => Returned(db, RequestError(Sentinel(ErrInvalidID), StatusBadRequest, []))
    case Err(err) => ReturnedWrapped(db, "getting station " + Quoted(req.id), err)
    case Ok(s) => Wrote(db, Respond(Data(StationJson(s)), StatusOK))
  }

  /** A station type the Create handler answered 201 for is then served by
      Retrieve with a 200 and the very same body, for the lower-case ids
      `uuid.New()` generates. */
  lemma CreateThenRetrieve(ctx: Ctx, req: Request, env: Env, db: Store, get: Request)
    requires WellFormed(db) && IsLowerCase(env.newId)
    requires ClientStatus(Create(ctx, req, env, db)) == StatusCreated
    requires get.id == env.newId
    ensures
      var created := Create(ctx, req, env, db);
      var fetched := Retrieve(ctx, get, env, created.db);
      ClientStatus(fetched) == StatusOK && ClientReply(fetched).value.body == ClientReply(created).value.body
  {
    var n := DecodeNewStationType(req.body).value;
    StationTypes.CreateThenGet(db, n, env.newId, env.now);
  }

  /** After the Delete handler's 204, Retrieve answers 404 for that id,
      however its letters are written. */
  lemma DeleteThenRetrieve(ctx: Ctx, req: Request, env: Env, db: Store, get: Request)
    requires ClientStatus(Delete(ctx, req, env, db)) == StatusNoContent
    requires Canonical(get.id) == Canonical(req.id)
    ensures ClientStatus(Retrieve(ctx, get, env, Delete(ctx, req, env, db).db)) == StatusNotFound
  {
  }

  /** A station the AddStation handler answered 201 for is then served by
      RetrieveStation with a 200 and the very same body, when both ids are
      written in lower case.  With an upper-case type id in the URL the 201
      body echoes it as written, while later reads show it in lower case. */
  lemma AddStationThenRetrieveStation(ctx: Ctx, req: Request, env: Env, db: Store, get: Request)
    requires ClientStatus(AddStation(ctx, req, env, db)) == StatusCreated
    requires IsLowerCase(env.newId) && IsLowerCase(req.id)
    requires get.id == env.newId
    ensures
      var added := AddStation(ctx, req, env, db);
      var fetched := RetrieveStation(ctx, get, env, added.db);
      ClientStatus(fetched) == StatusOK && ClientReply(fetched).value.body == ClientReply(added).value.body
  {
  }

  /** A well-formed id that names no station type lists no stations: 200 with
      an empty array, never 404. */
  lemma UnknownTypeListsNothing(ctx: Ctx, req: Request, env: Env, db: Store)
    requires WellFormed(db) && db.online && ValidId(req.id) && Canonical(req.id) !in db.types
    ensures ClientStatus(ListStations(ctx, req, env, db)) == StatusOK
    ensures ClientReply(ListStations(ctx, req, env, db)).value.body == Some(Arr([]))
  {
    UnknownTypeHasNoStations(db, Canonical(req.id));
    assert Stations.ListStations(db, req.id).value == [];
    assert StationsJson([]) == Arr([]);
  }

  /** Without the caller's claims neither station-changing handler touches
      the store, and both end in a 500. */
  lemma MissingClaimsIsInternal(ctx: Ctx, req: Request, env: Env, db: Store)
    requires ctx.claims.None?
    ensures AddStation(ctx, req, env, db).db == db && ClientStatus(AddStation(ctx, req, env, db)) == StatusInternalServerError
    ensures AdjustStation(ctx, req, env, db).db == db && ClientStatus(AdjustStation(ctx, req, env, db)) == StatusInternalServerError
  {
  }
}

=== FILE: json.dfy ===
/** JSON documents, as far as the service reads and writes them.  Numbers are
    integers (no field of the service is fractional) and timestamps are kept
    as an abstract leaf instead of their RFC 3339 text. */
module Json {
  import opened Wrappers

  datatype Json =
    | Null
    | Bool(b: bool)
    | Num(n: int)
    | Str(s: string)
    | Stamp(t: int)
    | Arr(items: seq<Json>)
    | Obj(members: seq<Member>)

  datatype Member = Member(key: string, value: Json)

  /** The keys of an object, in order. */
  function Keys(members: seq<Member>): (ks: seq<string>)
    ensures |ks| == |members|
    ensures forall i :: 0 <= i < |members| ==> ks[i] == members[i].key
  {
    seq(|members|, i requires 0 <= i < |members| => members[i].key)
  }
}

=== FILE: logger.dfy ===
/** The request-logging middleware.  It wraps a handler, runs it, writes one
    log line with the trace id, method, recorded status and path, and hands
    the handler's error on unchanged.  A request without its values asks the
    service to shut down instead. */
module Logger {
  import opened Wrappers
  import opened Errors
  import opened Store
  import opened Web

  const MissingValues: Error := Shutdown("web value missing from context")

  /** The wrapped handler applied to one request. */
  function Logged(inner: Handler, ctx: Ctx, req: Request, env: Env, db: Store): (e: Effect)
    ensures ctx.values.None? ==> e == Effect(db, None, None, Some(MissingValues), [])
    ensures ctx.values.Some? ==>
      var out := inner(ctx, req, env, db);
      && e.db == out.db && e.reply == out.reply && e.statusCode == out.statusCode && e.err == out.err
      && |e.log| == |out.log| + 1 && e.log[..|out.log|] == out.log
      && e.log[|out.log|] == LogRecord(ctx.values.value.traceId, req.verb,
                                       out.statusCode.GetOr(ctx.values.value.statusCode), req.path)
  {
    match ctx.values
    case None => Effect(db, None, None, Some(MissingValues), [])
    case Some(v) =>
      var out := inner(ctx, req, env, db);
      out.(log := out.log + [LogRecord(v.traceId, req.verb, out.statusCode.GetOr(v.statusCode), req.path)])
  }

  /** The middleware: a handler in, a logging handler out. */
  function Logger(inner: Handler): Handler {
    (ctx: Ctx, req: Request, env: Env, db: Store) => Logged(inner, ctx, req, env, db)
  }

  /** Logging never changes what the client receives or what is stored. */
  lemma LoggingIsTransparent(inner: Handler, ctx: Ctx, req: Request, env: Env, db: Store)
    requires ctx.values.Some?
    ensures ClientReply(Logger(inner)(ctx, req, env, db)) == ClientReply(inner(ctx, req, env, db))
    ensures Logger(inner)(ctx, req, env, db).db == inner(ctx, req, env, db).db
  {
  }

  /** Without request values the handler is never run: the outcome is the
      same whatever handler is wrapped, and nothing is logged. */
  lemma MissingValuesSkipsHandler(inner1: Handler, inner2: Handler, ctx: Ctx, req: Request, env: Env, db: Store)
    requires ctx.values.None?
    ensures Logger(inner1)(ctx, req, env, db) == Logger(inner2)(ctx, req, env, db)
    ensures Logger(inner1)(ctx, req, env, db).log == []
    ensures Cause(Logger(inner1)(ctx, req, env, db).err.value).Shutdown?
  {
  }

  /** Wrapping twice logs the request twice, inner line first. */
  lemma LoggingTwiceLogsTwice(inner: Handler, ctx: Ctx, req: Request, env: Env, db: Store)
    requires ctx.values.Some?
    ensures
      var once := Logger(inner)(ctx, req, env, db);
      var twice := Logger(Logger(inner))(ctx, req, env, db);
      |twice.log| == |once.log| + 1 && twice.log[..|once.log|] == once.log
      && twice.log[|once.log|] == once.log[|once.log| - 1]
  {
  }

  /** A handler that records no status leaves the status the request values
      hold in the log line. */
  lemma UnrecordedStatusLogsValuesStatus(inner: Handler, ctx: Ctx, req: Request, env: Env, db: Store)
    requires ctx.values.Some? && inner(ctx, req, env, db).statusCode.None?
    ensures
      var e := Logger(inner)(ctx, req, env, db);
      e.log[|e.log| - 1].statusCode == ctx.values.value.statusCode
  {
  }
}

=== FILE: ordering.dfy ===
/** A deterministic enumeration of a finite set of ids.

    The repository's list queries carry no ORDER BY, so any order of the rows
    is admissible.  A compiled function must still pick one; the model lists
    rows in ascending lexicographic order of their ids, and every property
    proved about the lists speaks only of their contents. */
module Ordering {

  /** `a` sorts at or before `b`, comparing character codes from the left. */
  predicate Below(a: string, b: string) {
    |a| == 0 || (|b| > 0 && (a[0] < b[0] || (a[0] == b[0] && Below(a[1..], b[1..]))))
  }

  lemma {:induction false} BelowTotal(a: string, b: string)
    ensures Below(a, b) || Below(b, a)
  {
    if |a| > 0 && |b| > 0 && a[0] == b[0] {
      BelowTotal(a[1..], b[1..]);
    }
  }

  lemma {:induction false} BelowAntisymmetric(a: string, b: string)
    requires Below(a, b) && Below(b, a)
    ensures a == b
  {
    if |a| > 0 && |b| > 0 {
      BelowAntisymmetric(a[1..], b[1..]);
      assert a == [a[0]] + a[1..];
      assert b == [b[0]] + b[1..];
    }
  }

  lemma {:induction false} BelowTransitive(a: string, b: string, c: string)
    requires Below(a, b) && Below(b, c)
    ensures Below(a, c)
  {
    if |a| > 0 && |b| > 0 && |c| > 0 && a[0] == b[0] && b[0] == c[0] {
      BelowTransitive(a[1..], b[1..], c[1..]);
    }
  }

  /** `m` is the first element of `s` in the order. */
  predicate IsLeast(m: string, s: set<string>) {
    m in s && forall x :: x in s ==> Below(m, x)
  }

  lemma {:induction false} LeastExists(s: set<string>)
    requires s != {}
    ensures exists m :: IsLeast(m, s)
    decreases |s|
  {
    var x :| x in s;
    if s == {x} {
      assert IsLeast(x, s) by { BelowTotal(x, x); }
    } else {
      LeastExists(s - {x});
      var m :| IsLeast(m, s - {x});
      BelowTotal(m, x);
      if Below(m, x) {
        assert IsLeast(m, s);
      } else {
        forall y | y in s ensures Below(x, y) {
          if y != x {
            BelowTransitive(x, m, y);
          } else {
            BelowTotal(x, x);
          }
        }
        assert IsLeast(x, s);
      }
    }
  }

  lemma LeastUnique(m1: string, m2: string, s: set<string>)
    requires IsLeast(m1, s) && IsLeast(m2, s)
    ensures m1 == m2
  {
    BelowAntisymmetric(m1, m2);
  }

  /** The elements of `s`, each exactly once, in ascending order. */
  function SortedIds(s: set<string>): (r: seq<string>)
    ensures |r| == |s|
    ensures forall i :: 0 <= i < |r| ==> r[i] in s
    ensures forall x :: x in s ==> x in r
    ensures forall i, j :: 0 <= i < j < |r| ==> r[i] != r[j]
    decreases |s|
  {
    if s == {} then []
    else
      LeastExists(s);
      assert forall m1, m2 :: IsLeast(m1, s) && IsLeast(m2, s) ==> m1 == m2 by {
        forall m1, m2 | IsLeast(m1, s) && IsLeast(m2, s) ensures m1 == m2 {
          LeastUnique(m1, m2, s);
        }
      }
      var m :| IsLeast(m, s);
      [m] + SortedIds(s - {m})
  }
}

=== FILE: routes.dfy ===
/** The application's route table.  Every route is a method, a URL pattern,
    the handler it runs and the route-specific middleware wrapped around it,
    outermost first.  The application-wide middleware wraps every route. */
module Routes {
  import opened Wrappers
  import opened Auth
  import opened Web
  import opened Store
  import Logger

  /** One `/`-separated piece of a URL pattern: literal text, or `{id}`.
      `/v1/station-type/{id}` is `[Lit("v1"), Lit("station-type"), Param]`. */
  datatype Segment = Lit(text: string) | Param

  /** The handlers the routes name. */
  datatype Target =
    | HealthCheck
    | AccountToken
    | ListTypes | RetrieveType | CreateType | UpdateType | DeleteType
    | ListStationsOfType | RetrieveOneStation | AddOneStation | AdjustOneStation | DeleteOneStation

  /** Route-specific middleware: token authentication, and a role check that
      needs the claims authentication put in the context. */
  datatype Mid = Authenticate | RequireRole(role: string)

  /** The middleware every route runs inside, outermost first. */
  datatype AppMid = LoggerMid | ErrorsMid | MetricsMid

  datatype Route = Route(verb: Method, pattern: seq<Segment>, target: Target, mids: seq<Mid>)

  const AppMiddleware: seq<AppMid> := [LoggerMid, ErrorsMid, MetricsMid]

  const Authenticated: seq<Mid> := [Authenticate]
  const AdminOnly: seq<Mid> := [Authenticate, RequireRole(RoleAdmin)]

  const Table: seq<Route> := [
    Route(GET, [Lit("v1"), Lit("health")], HealthCheck, []),
    Route(GET, [Lit("v1"), Lit("account"), Lit("token")], AccountToken, []),
    Route(GET, [Lit("v1"), Lit("station-types")], ListTypes, Authenticated),
    Route(GET, [Lit("v1"), Lit("station-type"), Param], RetrieveType, Authenticated),
    Route(POST, [Lit("v1"), Lit("station-type")], CreateType, AdminOnly),
    Route(PUT, [Lit("v1"), Lit("station-type"), Param], UpdateType, AdminOnly),
    Route(DELETE, [Lit("v1"), Lit("station-type"), Param], DeleteType, AdminOnly),
    Route(GET, [Lit("v1"), Lit("station-type"), Param, Lit("stations")], ListStationsOfType, Authenticated),
    Route(GET, [Lit("v1"), Lit("station"), Param], RetrieveOneStation, Authenticated),
    Route(POST, [Lit("v1"), Lit("station-type"), Param, Lit("station")], AddOneStation, AdminOnly),
    Route(PUT, [Lit("v1"), Lit("station"), Param], AdjustOneStation, AdminOnly),
    Route(DELETE, [Lit("v1"), Lit("station"), Param], DeleteOneStation, AdminOnly)
  ]

  /** A request path, split at `/`, matches a pattern when the literal pieces
      agree and every `{id}` has a non-empty piece. */
  predicate Matches(p: seq<Segment>, path: seq<string>) {
    && |p| == |path|
    && forall k :: 0 <= k < |p| ==> if p[k].Lit? then path[k] == p[k].text else path[k] != ""
  }

  predicate Serves(r: Route, verb: Method, path: seq<string>) {
    r.verb == verb && Matches(r.pattern, path)
  }

  /** The route serving `verb` on `path` among `routes`, the first one that matches. */
  function Find(routes: seq<Route>, verb: Method, path: seq<string>): (r: Option<nat>)
    ensures r.None? <==> forall i :: 0 <= i < |routes| ==> !Serves(routes[i], verb, path)
    ensures r.Some? ==> r.value < |routes| && Serves(routes[r.value], verb, path)
    ensures r.Some? ==> forall i :: 0 <= i < r.value ==> !Serves(routes[i], verb, path)
  {
    if routes == [] then None
    else if Serves(routes[0], verb, path) then Some(0)
    else match Find(routes[1..], verb, path)
      case None => None
      case Some(i) => Some(i + 1)
  }

  /** The route the router picks for a request, if any. */
  function Lookup(verb: Method, path: seq<string>): (r: Option<Route>)
    ensures r.Some? ==> r.value in Table && Serves(r.value, verb, path)
    ensures r.None? <==> forall i :: 0 <= i < |Table| ==> !Serves(Table[i], verb, path)
  {
    match Find(Table, verb, path)
    case None => None
    case Some(i) => Some(Table[i])
  }

  /** Two patterns no path can both match: different lengths, or different
      literal text in the second piece. */
  predicate Separated(p: seq<Segment>, q: seq<Segment>) {
    || |p| != |q|
    || (1 < |p| && 1 < |q| && p[1].Lit? && q[1].Lit? && p[1].text != q[1].text)
  }

  lemma SeparatedPatternsShareNoPath(p: seq<Segment>, q: seq<Segment>, path: seq<string>)
    requires Separated(p, q)
    ensures !(Matches(p, path) && Matches(q, path))
  {
  }

  /** The literal pieces in the second position are pairwise different. */
  lemma SecondPiecesDiffer()
    ensures "health" != "account" && "health" != "station-types" && "health" != "station-type" && "health" != "station"
    ensures "account" != "station-types" && "account" != "station-type" && "account" != "station"
    ensures "station-types" != "station-type" && "station-types" != "station" && "station-type" != "station"
  {
    assert "account"[0] != "station"[0];
  }

  /** Routes with the same method never match the same path. */
  lemma {:induction false} SameMethodRoutesAreSeparated()
    ensures forall i, j :: 0 <= i < j < |Table| && Table[i].verb == Table[j].verb ==>
      Separated(Table[i].pattern, Table[j].pattern)
  {
    SecondPiecesDiffer();
  }

  /** The router's answer does not depend on the order of the table: the
      route it picks is the only route serving the request. */
  lemma {:induction false} LookupIsTheOnlyMatch(verb: Method, path: seq<string>, i: int)
    requires 0 <= i < |Table| && Serves(Table[i], verb, path)
    ensures Lookup(verb, path) == Some(Table[i])
  {
    SameMethodRoutesAreSeparated();
  }

  /** Only the health check and the token route are public; every other
      route authenticates first and exactly once. */
  lemma OnlyHealthAndTokenArePublic()
    ensures forall i :: 0 <= i < |Table| ==>
      (Table[i].mids == [] <==> Table[i].target == HealthCheck || Table[i].target == AccountToken)
    ensures forall i :: 0 <= i < |Table| && Table[i].mids != [] ==>
      Table[i].mids[0] == Authenticate && Authenticate !in Table[i].mids[1..]
  {
  }

  /** Reading is open to every authenticated caller; every write needs the
      administrator role, checked after authentication. */
  lemma WritesNeedAdmin()
    ensures forall i :: 0 <= i < |Table| ==> (RequireRole(RoleAdmin) in Table[i].mids <==> Table[i].verb != GET)
    ensures forall i :: 0 <= i < |Table| && Table[i].verb != GET ==> Table[i].mids == [Authenticate, RequireRole(RoleAdmin)]
  {
  }

  /** Every handler is reachable through exactly one route. */
  lemma EveryHandlerRoutedOnce(t: Target)
    ensures exists i :: 0 <= i < |Table| && Table[i].target == t
    ensures forall i, j :: 0 <= i < j < |Table| ==> Table[i].target != Table[j].target
  {
    match t
    case HealthCheck => assert Table[0].target == t;
    case AccountToken => assert Table[1].target == t;
    case ListTypes => assert Table[2].target == t;
    case RetrieveType => assert Table[3].target == t;
    case CreateType => assert Table[4].target == t;
    case UpdateType => assert Table[5].target == t;
    case DeleteType => assert Table[6].target == t;
    case ListStationsOfType => assert Table[7].target == t;
    case RetrieveOneStation => assert Table[8].target == t;
    case AddOneStation => assert Table[9].target == t;
    case AdjustOneStation => assert Table[10].target == t;
    case DeleteOneStation => assert Table[11].target == t;
  }

  /** A handler wrapped in middleware, the first listed outermost. */
  function Chain(mids: seq<Handler -> Handler>, h: Handler): Handler
    decreases |mids|
  {
    if mids == [] then h else mids[0](Chain(mids[1..], h))
  }

  /** The application middleware as handler transformers.  The errors and
      metrics middleware are parameters: only the logger is modelled. */
  function AppMidFn(m: AppMid, errors: Handler -> Handler, metrics: Handler -> Handler): Handler -> Handler {
    match m
    case LoggerMid => Logger.Logger
    case ErrorsMid => errors
    case MetricsMid => metrics
  }

  /** A list of application middleware as handler transformers, in order. */
  function AppFns(ms: seq<AppMid>, errors: Handler -> Handler, metrics: Handler -> Handler): seq<Handler -> Handler>
    decreases |ms|
  {
    if ms == [] then [] else [AppMidFn(ms[0], errors, metrics)] + AppFns(ms[1..], errors, metrics)
  }

  function AppStack(errors: Handler -> Handler, metrics: Handler -> Handler): seq<Handler -> Handler> {
    AppFns(AppMiddleware, errors, metrics)
  }

  /** Every request that reaches a route is logged exactly once, whatever the
      errors and metrics middleware, the route middleware and the handler do:
      a request that authentication or the role check refuses gets its log
      line too.  The client sees what the inner chain produced, and the line
      carries the status that chain recorded. */
  lemma LoggerSeesEveryRequest(errors: Handler -> Handler, metrics: Handler -> Handler, route: seq<Handler -> Handler>,
                               h: Handler, ctx: Ctx, req: Request, env: Env, db: Store)
    requires ctx.values.Some?
    ensures
      var inner := Chain([errors, metrics] + route, h)(ctx, req, env, db);
      var whole := Chain(AppStack(errors, metrics) + route, h)(ctx, req, env, db);
      && whole.db == inner.db && whole.reply == inner.reply && whole.err == inner.err
      && |whole.log| == |inner.log| + 1 && whole.log[..|inner.log|] == inner.log
      && whole.log[|inner.log|] == LogRecord(ctx.values.value.traceId, req.verb,
                                             inner.statusCode.GetOr(ctx.values.value.statusCode), req.path)
  {
    var stack := AppStack(errors, metrics) + route;
    assert stack[0] == Logger.Logger;
    assert stack[1..] == [errors, metrics] + route;
    assert Chain(stack, h) == Logger.Logger(Chain([errors, metrics] + route, h));
  }
}

=== FILE: station.dfy ===
/** The station repository: stations belong to a station type and to the
    account that added them.  Changing a station is allowed to its owner and
    to administrators only. */
module Stations {
  import opened Wrappers
  import opened Uuid
  import opened Errors
  import opened Ordering
  import opened Auth
  import opened StationTypeModels
  import opened Store

  /** Why the database refuses to insert station `s`, if it does. */
  function InsertStationFault(db: Store, s: Station): Option<DbReason> {
    if !db.online then Some(Unavailable)
    else if !ValidId(s.id) || !ValidId(s.stationTypeId) then Some(InvalidUuidText)
    else if !InInt32(s.locationX) || !InInt32(s.locationY) then Some(IntegerOutOfRange)
    else if Canonical(s.id) in db.stations then Some(UniqueViolation)
    else if Canonical(s.stationTypeId) !in db.types then Some(ForeignKeyViolation)
    else None
  }

  /** Station `s` as the database stores it: both ids in their canonical spelling. */
  function AsStored(s: Station): Station {
    s.(id := Canonical(s.id), stationTypeId := Canonical(s.stationTypeId))
  }

  /** Adds a station of type `stationTypeId`, owned by the caller.  Neither the
      validation tags of NewStation nor the id's format are checked here; only
      the database's own constraints can refuse the row.  The record returned
      carries the ids as given; the row stored, their canonical spelling. */
  function AddStation(db: Store, account: Claims, ns: NewStation, stationTypeId: Id, newId: Id, now: Time): (r: Step<Station>)
    ensures r.result.Ok? <==>
      && db.online && ValidId(newId) && ValidId(stationTypeId) && Canonical(stationTypeId) in db.types
      && Canonical(newId) !in db.stations && InInt32(ns.locationX) && InInt32(ns.locationY)
    ensures r.result.Ok? ==>
      var s := r.result.value;
      && s.id == newId && s.stationTypeId == stationTypeId && s.accountId == account.subject
      && s.name == ns.name && s.description == ns.description
      && s.locationX == ns.locationX && s.locationY == ns.locationY
      && s.dateCreated == now && s.dateUpdated == now
      && r.db == db.(stations := db.stations[Canonical(newId) := AsStored(s)])
    ensures r.result.Err? ==> r.db == db && r.result.error.Wrapped? && Cause(r.result.error).Db?
    ensures WellFormed(db) ==> WellFormed(r.db)
  {
    var s := Station(newId, stationTypeId, account.subject, ns.name, ns.description, ns.locationX, ns.locationY, now, now);
    match InsertStationFault(db, s)
    case Some(reason) => Step(db, Err(Wrapped("inserting station", Db(reason))))
    case None => Step(db.(stations := db.stations[Canonical(newId) := AsStored(s)]), Ok(s))
  }

  /** Finds station `id`; any spelling of a stored UUID finds it. */
  function RetrieveStation(db: Store, id: Id): (r: Result<Station, Error>)
    ensures !ValidId(id) ==> r == Err(Sentinel(ErrInvalidID))
    ensures ValidId(id) && !db.online ==> r == Err(Wrapped("selecting single station", Db(Unavailable)))
    ensures ValidId(id) && db.online && Canonical(id) !in db.stations ==> r == Err(Sentinel(ErrStationNotFound))
    ensures r.Ok? <==> ValidId(id) && db.online && Canonical(id) in db.stations
    ensures r.Ok? ==> r.value == db.stations[Canonical(id)]
  {
    var key := Canonical(id);
    if !ValidId(id) then Err(Sentinel(ErrInvalidID))
    else if !db.online then Err(Wrapped("selecting single station", Db(Unavailable)))
    else if key !in db.stations then Err(Sentinel(ErrStationNotFound))
    else Ok(db.stations[key])
  }

  /** Two spellings of one UUID get the same answer. */
  lemma RetrieveStationIgnoresCase(db: Store, a: Id, b: Id)
    requires Canonical(a) == Canonical(b)
    ensures RetrieveStation(db, a) == RetrieveStation(db, b)
  {
    assert ValidId(a) == ValidId(Canonical(a)) == ValidId(b);
  }

  /** The owner-or-admin rule. */
  predicate MayAdjust(account: Claims, s: Station) {
    HasRole(account, RoleAdmin) || s.accountId == account.subject
  }

  /** The station after a partial update: absent fields keep their value. */
  function Adjusted(s: Station, update: UpdateStation, now: Time): Station {
    s.(name := update.name.GetOr(s.name),
       description := update.description.GetOr(s.description),
       locationX := update.locationX.GetOr(s.locationX),
       locationY := update.locationY.GetOr(s.locationY),
       dateUpdated := now)
  }

  /** Changes the present fields of station `id`, if the caller owns it or is
      an administrator.  Lookup errors come before the ownership check. */
  function AdjustStation(db: Store, account: Claims, id: Id, update: UpdateStation, now: Time): (r: Step<()>)
    ensures RetrieveStation(db, id).Err? ==> r == Step(db, Err(RetrieveStation(db, id).error))
    ensures RetrieveStation(db, id).Ok? && !MayAdjust(account, db.stations[Canonical(id)]) ==>
      r == Step(db, Err(Sentinel(ErrForbidden)))
    ensures r.result.Err? ==> r.db == db
    ensures r.result.Ok? ==>
      var key := Canonical(id);
      && key in db.stations && MayAdjust(account, db.stations[key])
      && r.db == db.(stations := db.stations[key := Adjusted(db.stations[key], update, now)])
    ensures WellFormed(db) ==> WellFormed(r.db)
  {
    match RetrieveStation(db, id)
    case Err(e) => Step(db, Err(e))
    case Ok(s) =>
      if !MayAdjust(account, s) then Step(db, Err(Sentinel(ErrForbidden)))
      else
        var s' := Adjusted(s, update, now);
        if !InInt32(s'.locationX) || !InInt32(s'.locationY) then
          Step(db, Err(Wrapped("updating station", Db(IntegerOutOfRange))))
        else
          Step(db.(stations := db.stations[Canonical(id) := s']), Ok(()))
  }

  /** Removes station `id`.  A well-formed id that names nothing is not an error. */
  function DeleteStation(db: Store, id: Id): (r: Step<()>)
    ensures !ValidId(id) ==> r == Step(db, Err(Sentinel(ErrInvalidID)))
    ensures ValidId(id) && !db.online ==> r == Step(db, Err(Wrapped("deleting station " + id, Db(Unavailable))))
    ensures ValidId(id) && db.online ==> r == Step(db.(stations := db.stations - {Canonical(id)}), Ok(()))
    ensures WellFormed(db) ==> WellFormed(r.db)
  {
    if !ValidId(id) then Step(db, Err(Sentinel(ErrInvalidID)))
    else if !db.online then Step(db, Err(Wrapped("deleting station " + id, Db(Unavailable))))
    else Step(db.(stations := db.stations - {Canonical(id)}), Ok(()))
  }

  /** The stations of one station type.  The id's format is not checked here,
      but the database refuses non-UUID text for the UUID column. */
  function ListStations(db: Store, stationTypeId: Id): (r: Result<seq<Station>, Error>)
    ensures !db.online ==> r == Err(Wrapped("selecting stations", Db(Unavailable)))
    ensures db.online && !ValidId(stationTypeId) ==> r == Err(Wrapped("selecting stations", Db(InvalidUuidText)))
    ensures db.online && ValidId(stationTypeId) ==> r.Ok? && |r.value| == |StationsOf(db, Canonical(stationTypeId))|
  {
    if !db.online then Err(Wrapped("selecting stations", Db(Unavailable)))
    else if !ValidId(stationTypeId) then Err(Wrapped("selecting stations", Db(InvalidUuidText)))
    else
      var ks := SortedIds(StationsOf(db, Canonical(stationTypeId)));
      Ok(seq(|ks|, i requires 0 <= i < |ks| => db.stations[ks[i]]))
  }

  /** Two spellings of one UUID delete the same station and list the same stations. */
  lemma StationLookupsIgnoreCase(db: Store, a: Id, b: Id)
    requires Canonical(a) == Canonical(b)
    ensures DeleteStation(db, a).db == DeleteStation(db, b).db
    ensures DeleteStation(db, a).result.Ok? == DeleteStation(db, b).result.Ok?
    ensures ListStations(db, a) == ListStations(db, b)
  {
    assert ValidId(a) == ValidId(Canonical(a)) == ValidId(b);
  }

  /** Every entry of ListStations is a stored station of the type, and no
      station is listed twice. */
  lemma ListStationsHoldsOnlyTheType(db: Store, stationTypeId: Id)
    requires WellFormed(db) && db.online && ValidId(stationTypeId)
    ensures
      var list := ListStations(db, stationTypeId).value;
      && (forall i :: 0 <= i < |list| ==>
            list[i].id in db.stations && db.stations[list[i].id] == list[i]
            && list[i].stationTypeId == Canonical(stationTypeId))
      && (forall i, j :: 0 <= i < j < |list| ==> list[i].id != list[j].id)
  {
    var ks := SortedIds(StationsOf(db, Canonical(stationTypeId)));
    var list := ListStations(db, stationTypeId).value;
    forall i | 0 <= i < |list|
      ensures list[i] == db.stations[ks[i]] && list[i].id == ks[i]
    {
    }
  }

  /** Every stored station of the type appears in ListStations. */
  lemma ListStationsHoldsEveryStation(db: Store, stationTypeId: Id, k: Id)
    requires db.online && ValidId(stationTypeId)
    requires k in db.stations && db.stations[k].stationTypeId == Canonical(stationTypeId)
    ensures db.stations[k] in ListStations(db, stationTypeId).value
  {
    var ks := SortedIds(StationsOf(db, Canonical(stationTypeId)));
    assert k in StationsOf(db, Canonical(stationTypeId));
    var i :| 0 <= i < |ks| && ks[i] == k;
    assert ListStations(db, stationTypeId).value[i] == db.stations[k];
  }

  /** The `stations` count of a station type is the length of its station list. */
  lemma CountMatchesListStations(db: Store, stationTypeId: Id)
    requires db.online && ValidId(stationTypeId) && Canonical(stationTypeId) in db.types
    ensures |ListStations(db, stationTypeId).value| == View(db, Canonical(stationTypeId)).stations
  {
  }

  /** What AddStation returns is what RetrieveStation then finds, with its
      ids in canonical spelling; exactly that when they were given in lower case. */
  lemma AddThenRetrieve(db: Store, account: Claims, ns: NewStation, stationTypeId: Id, newId: Id, now: Time)
    requires AddStation(db, account, ns, stationTypeId, newId, now).result.Ok?
    ensures
      var r := AddStation(db, account, ns, stationTypeId, newId, now);
      RetrieveStation(r.db, newId) == Ok(AsStored(r.result.value))
    ensures IsLowerCase(newId) && IsLowerCase(stationTypeId) ==>
      var r := AddStation(db, account, ns, stationTypeId, newId, now);
      RetrieveStation(r.db, newId) == r.result
  {
  }

  /** Whether AddStation succeeds does not depend on the name or description:
      a station with an empty name is stored like any other. */
  lemma AddStationIgnoresTags(db: Store, account: Claims, ns: NewStation, stationTypeId: Id, newId: Id, now: Time,
                              name: string, description: string)
    ensures AddStation(db, account, ns, stationTypeId, newId, now).result.Ok?
        == AddStation(db, account, ns.(name := name, description := description), stationTypeId, newId, now).result.Ok?
  {
  }

  /** AdjustStation then RetrieveStation: present fields are the new values,
      absent ones, the id, the type, the owner and the creation date are as
      before, and the update date is `now`. */
  lemma AdjustThenRetrieve(db: Store, account: Claims, id: Id, update: UpdateStation, now: Time)
    requires AdjustStation(db, account, id, update, now).result.Ok?
    ensures
      var before := db.stations[Canonical(id)];
      var after := RetrieveStation(AdjustStation(db, account, id, update, now).db, id);
      && after.Ok?
      && after.value.id == before.id && after.value.stationTypeId == before.stationTypeId
      && after.value.accountId == before.accountId && after.value.dateCreated == before.dateCreated
      && after.value.name == update.name.GetOr(before.name)
      && after.value.description == update.description.GetOr(before.description)
      && after.value.locationX == update.locationX.GetOr(before.locationX)
      && after.value.locationY == update.locationY.GetOr(before.locationY)
      && after.value.dateUpdated == now
  {
  }

  /** The owner and any administrator may adjust a station in range; no one
      else may, whatever the update. */
  lemma AdjustAllowedIffOwnerOrAdmin(db: Store, account: Claims, id: Id, update: UpdateStation, now: Time)
    requires RetrieveStation(db, id).Ok?
    requires InInt32(update.locationX.GetOr(db.stations[Canonical(id)].locationX))
    requires InInt32(update.locationY.GetOr(db.stations[Canonical(id)].locationY))
    ensures AdjustStation(db, account, id, update, now).result.Ok?
        <==> HasRole(account, RoleAdmin) || db.stations[Canonical(id)].accountId == account.subject
  {
  }

  /** A lookup error is reported whoever the caller is. */
  lemma LookupErrorsPrecedeForbidden(db: Store, a1: Claims, a2: Claims, id: Id, update: UpdateStation, now: Time)
    requires RetrieveStation(db, id).Err?
    ensures AdjustStation(db, a1, id, update, now) == AdjustStation(db, a2, id, update, now)
    ensures AdjustStation(db, a1, id, update, now).result.error != Sentinel(ErrForbidden)
  {
  }

  /** Deleting a station twice leaves what deleting once leaves; afterwards it is not found. */
  lemma DeleteStationIdempotent(db: Store, id: Id)
    requires DeleteStation(db, id).result.Ok?
    ensures DeleteStation(DeleteStation(db, id).db, id) == DeleteStation(db, id)
    ensures RetrieveStation(DeleteStation(db, id).db, id) == Err(Sentinel(ErrStationNotFound))
  {
    var once := DeleteStation(db, id).db;
    assert once.stations - {Canonical(id)} == once.stations;
  }
}

=== FILE: station_type.dfy ===
/** The station-type repository: create, list, get, update and delete station
    types.  Every function checks the id's format before it reads the store,
    and reports a missing row through a package-level error value. */
module StationTypes {
  import opened Wrappers
  import opened Uuid
  import opened Errors
  import opened Ordering
  import opened StationTypeModels
  import opened Store

  /** Why the database refuses to insert a station-type row, if it does. */
  function InsertTypeFault(db: Store, row: TypeRow): Option<DbReason> {
    if !db.online then Some(Unavailable)
    else if !ValidId(row.id) then Some(InvalidUuidText)
    else if Canonical(row.id) in db.types then Some(UniqueViolation)
    else None
  }

  /** Adds a station type under the freshly generated `newId`, stamped `now`.
      The row is stored under the id's canonical spelling; the record returned
      carries the id as generated. */
  function Create(db: Store, nst: NewStationType, newId: Id, now: Time): (r: Step<StationType>)
    ensures r.result.Ok? <==> db.online && ValidId(newId) && Canonical(newId) !in db.types
    ensures r.result.Ok? ==>
      var st := r.result.value;
      && st.id == newId && st.name == nst.name && st.description == nst.description
      && st.dateCreated == now && st.dateUpdated == now && st.stations == 0
      && var key := Canonical(newId);
         r.db == db.(types := db.types[key := TypeRow(key, nst.name, nst.description, now, now)])
    ensures r.result.Err? ==> r.db == db && r.result.error.Wrapped? && Cause(r.result.error).Db?
    ensures WellFormed(db) ==> WellFormed(r.db)
  {
    var key := Canonical(newId);
    match InsertTypeFault(db, TypeRow(newId, nst.name, nst.description, now, now))
    case Some(reason) => Step(db, Err(Wrapped("inserting station tyoe", Db(reason))))
    case None =>
      Step(db.(types := db.types[key := TypeRow(key, nst.name, nst.description, now, now)]),
           Ok(StationType(newId, nst.name, nst.description, 0, now, now)))
  }

  /** Finds the station type `id`, with the number of its stations.  Any
      spelling of a stored UUID finds it. */
  function Get(db: Store, id: Id): (r: Result<StationType, Error>)
    ensures !ValidId(id) ==> r == Err(Sentinel(ErrInvalidID))
    ensures ValidId(id) && !db.online ==> r == Err(Wrapped("selecting single station type", Db(Unavailable)))
    ensures ValidId(id) && db.online && Canonical(id) !in db.types ==> r == Err(Sentinel(ErrNotFound))
    ensures r.Ok? <==> ValidId(id) && db.online && Canonical(id) in db.types
    ensures r.Ok? ==>
      var row := db.types[Canonical(id)];
      && r.value.id == row.id && r.value.name == row.name && r.value.description == row.description
      && r.value.dateCreated == row.dateCreated && r.value.dateUpdated == row.dateUpdated
      && r.value.stations == |set k | k in db.stations && db.stations[k].stationTypeId == Canonical(id)|
  {
    var key := Canonical(id);
    if !ValidId(id) then Err(Sentinel(ErrInvalidID))
    else if !db.online then Err(Wrapped("selecting single station type", Db(Unavailable)))
    else if key !in db.types then Err(Sentinel(ErrNotFound))
    else Ok(View(db, key))
  }

  /** Two spellings of one UUID get the same answer. */
  lemma GetIgnoresCase(db: Store, a: Id, b: Id)
    requires Canonical(a) == Canonical(b)
    ensures Get(db, a) == Get(db, b)
  {
    assert ValidId(a) == ValidId(Canonical(a)) == ValidId(b);
  }

  /** Every station type with the number of its stations.  The query has no
      ORDER BY; the model lists the rows by ascending id. */
  function List(db: Store): (r: Result<seq<StationType>, Error>)
    ensures !db.online ==> r == Err(Wrapped("selecting station types", Db(Unavailable)))
    ensures db.online ==> r.Ok? && |r.value| == |db.types|
  {
    if !db.online then Err(Wrapped("selecting station types", Db(Unavailable)))
    else
      var ks := SortedIds(db.types.Keys);
      Ok(seq(|ks|, i requires 0 <= i < |ks| => View(db, ks[i])))
  }

  /** List holds every stored station type exactly once, each as the query
      for that one row shows it. */
  lemma ListHasEveryTypeOnce(db: Store)
    requires db.online && forall k :: k in db.types ==> db.types[k].id == k
    ensures forall i :: 0 <= i < |List(db).value| ==>
      List(db).value[i].id in db.types && List(db).value[i] == View(db, List(db).value[i].id)
    ensures forall k :: k in db.types ==> View(db, k) in List(db).value
    ensures forall i, j :: 0 <= i < j < |List(db).value| ==> List(db).value[i].id != List(db).value[j].id
  {
    var ks := SortedIds(db.types.Keys);
    var list := List(db).value;
    assert |list| == |ks|;
    forall i | 0 <= i < |list|
      ensures list[i] == View(db, ks[i]) && list[i].id == ks[i]
    {
    }
    forall k | k in db.types
      ensures View(db, k) in list
    {
      var i :| 0 <= i < |ks| && ks[i] == k;
      assert list[i] == View(db, k);
    }
  }

  /** In a well-formed store, Get of a stored id returns what the listing shows for it. */
  lemma GetOfStoredType(db: Store, k: Id)
    requires WellFormed(db) && db.online && k in db.types
    ensures Get(db, k) == Ok(View(db, k))
  {
  }

  /** The row after a partial update: absent fields keep their value. */
  function Patched(row: TypeRow, update: UpdateStationType, now: Time): TypeRow {
    row.(name := update.name.GetOr(row.name),
         description := update.description.GetOr(row.description),
         dateUpdated := now)
  }

  /** Changes the present fields of station type `id` and stamps it `now`. */
  function Update(db: Store, id: Id, update: UpdateStationType, now: Time): (r: Step<()>)
    ensures r.result.Ok? <==> Get(db, id).Ok?
    ensures r.result.Err? ==> r.db == db && r.result.error == Get(db, id).error
    ensures r.result.Ok? ==>
      && r.db.stations == db.stations && r.db.accounts == db.accounts && r.db.online == db.online
      && var key := Canonical(id);
         r.db.types == db.types[key := Patched(db.types[key], update, now)]
    ensures WellFormed(db) ==> WellFormed(r.db)
  {
    match Get(db, id)
    case Err(e) => Step(db, Err(e))
    case Ok(_) =>
      var key := Canonical(id);
      Step(db.(types := db.types[key := Patched(db.types[key], update, now)]), Ok(()))
  }

  /** Removes station type `id` and, by the cascade, its stations.  A
      well-formed id that names nothing is not an error. */
  function Delete(db: Store, id: Id): (r: Step<()>)
    ensures !ValidId(id) ==> r == Step(db, Err(Sentinel(ErrInvalidID)))
    ensures ValidId(id) && !db.online ==> r == Step(db, Err(Wrapped("deleting station type " + id, Db(Unavailable))))
    ensures ValidId(id) && db.online ==> r.result.Ok?
    ensures r.result.Ok? ==>
      var key := Canonical(id);
      && r.db.online && key !in r.db.types && StationsOf(r.db, key) == {}
      && r.db.types == db.types - {key}
      && (forall k :: k in db.stations && db.stations[k].stationTypeId != key ==>
            k in r.db.stations && r.db.stations[k] == db.stations[k])
      && r.db.stations.Keys <= db.stations.Keys
      && r.db.accounts == db.accounts
    ensures WellFormed(db) ==> WellFormed(r.db)
  {
    var key := Canonical(id);
    if !ValidId(id) then Step(db, Err(Sentinel(ErrInvalidID)))
    else if !db.online then Step(db, Err(Wrapped("deleting station type " + id, Db(Unavailable))))
    else
      var kept := map k | k in db.stations.Keys && db.stations[k].stationTypeId != key :: db.stations[k];
      CascadeKeepsWellFormed(db, key, kept);
      Step(db.(types := db.types - {key}, stations := kept), Ok(()))
  }

  /** Dropping a type together with its stations keeps every constraint. */
  lemma CascadeKeepsWellFormed(db: Store, key: Id, kept: map<Id, Station>)
    requires kept == map k | k in db.stations.Keys && db.stations[k].stationTypeId != key :: db.stations[k]
    ensures WellFormed(db) ==> WellFormed(db.(types := db.types - {key}, stations := kept))
  {
    if WellFormed(db) {
      var db' := db.(types := db.types - {key}, stations := kept);
      forall k | k in db'.stations
        ensures db'.stations[k] == db.stations[k] && db.stations[k].stationTypeId != key
      {
      }
    }
  }

  /** Two spellings of one UUID delete the same rows. */
  lemma DeleteIgnoresCase(db: Store, a: Id, b: Id)
    requires Canonical(a) == Canonical(b)
    ensures Delete(db, a).db == Delete(db, b).db
    ensures Delete(db, a).result.Ok? == Delete(db, b).result.Ok?
  {
    assert ValidId(a) == ValidId(Canonical(a)) == ValidId(b);
  }

  /** A malformed id is refused the same way whatever the store holds. */
  lemma GetMalformedIgnoresStore(db1: Store, db2: Store, id: Id)
    requires !ValidId(id)
    ensures Get(db1, id) == Get(db2, id) == Err(Sentinel(ErrInvalidID))
  {
  }

  /** What Create returns is what Get then finds, under the canonical
      spelling of the id, which is the generated id itself when it is lower case. */
  lemma CreateThenGet(db: Store, nst: NewStationType, newId: Id, now: Time)
    requires WellFormed(db)
    requires Create(db, nst, newId, now).result.Ok?
    ensures
      var r := Create(db, nst, newId, now);
      Get(r.db, newId) == Ok(r.result.value.(id := Canonical(newId)))
    ensures IsLowerCase(newId) ==> Get(Create(db, nst, newId, now).db, newId) == Create(db, nst, newId, now).result
  {
    var key := Canonical(newId);
    var db' := Create(db, nst, newId, now).db;
    UnknownTypeHasNoStations(db, key);
    assert StationsOf(db', key) == StationsOf(db, key);
  }

  /** Update then Get: the present fields are the new values, the others, the
      id, the creation date and the station count are as before, and the
      update date is `now`. */
  lemma UpdateThenGet(db: Store, id: Id, update: UpdateStationType, now: Time)
    requires Get(db, id).Ok?
    ensures
      var before := Get(db, id).value;
      Get(Update(db, id, update, now).db, id) == Ok(before.(
        name := update.name.GetOr(before.name),
        description := update.description.GetOr(before.description),
        dateUpdated := now))
  {
    var db' := Update(db, id, update, now).db;
    assert StationsOf(db', Canonical(id)) == StationsOf(db, Canonical(id));
  }

  /** Deleting twice leaves what deleting once leaves, and both succeed. */
  lemma DeleteIdempotent(db: Store, id: Id)
    requires Delete(db, id).result.Ok?
    ensures Delete(Delete(db, id).db, id) == Delete(db, id)
  {
    var once := Delete(db, id).db;
    var twice := Delete(once, id).db;
    assert twice.stations == once.stations;
    assert twice.types == once.types;
  }

  /** After a successful delete the station type is not found. */
  lemma DeleteThenGet(db: Store, id: Id)
    requires Delete(db, id).result.Ok?
    ensures Get(Delete(db, id).db, id) == Err(Sentinel(ErrNotFound))
  {
  }
}

=== FILE: station_type_models.dfy ===
/** The records of the station-type package: what is stored, what clients send
    to create or change a record, and the `validate` struct tags on the
    create records. */
module StationTypeModels {
  import opened Wrappers
  import opened Uuid
  import opened Errors
  import opened Json

  /** A station type as the repository returns it; `stations` is computed by
      the query, not stored. */
  datatype StationType = StationType(
    id: Id,
    name: string,
    description: string,
    stations: int,
    dateCreated: Time,
    dateUpdated: Time)

  /** What a client supplies to add a station type. */
  datatype NewStationType = NewStationType(name: string, description: string)

  /** A partial update: `None` plays the part of a nil pointer, "leave as is". */
  datatype UpdateStationType = UpdateStationType(name: Option<string>, description: Option<string>)

  /** A station of some station type, owned by the account that added it. */
  datatype Station = Station(
    id: Id,
    stationTypeId: Id,
    accountId: Id,
    name: string,
    description: string,
    locationX: int,
    locationY: int,
    dateCreated: Time,
    dateUpdated: Time)

  /** What a client supplies to add a station. */
  datatype NewStation = NewStation(name: string, description: string, locationX: int, locationY: int)

  datatype UpdateStation = UpdateStation(
    name: Option<string>,
    description: Option<string>,
    locationX: Option<int>,
    locationY: Option<int>)

  /** The tags on NewStationType: `name` is `required`, which for a string
      means non-empty; `description` carries no tag. */
  predicate ValidNewStationType(n: NewStationType) {
    n.name != ""
  }

  /** The tags on NewStation: `name` is `required`; both locations are `gte=0`. */
  predicate ValidNewStation(n: NewStation) {
    n.name != "" && n.locationX >= 0 && n.locationY >= 0
  }

  /** The validator's report for a NewStationType: one entry per failed tag. */
  function NewStationTypeErrors(n: NewStationType): (r: seq<FieldError>)
    ensures r == [] <==> ValidNewStationType(n)
    ensures FieldError("name", "required") in r <==> n.name == ""
    ensures forall f :: f in r ==> f.field == "name"
  {
    if n.name == "" then [FieldError("name", "required")] else []
  }

  /** The validator's report for a NewStation, fields in declaration order. */
  function NewStationErrors(n: NewStation): (r: seq<FieldError>)
    ensures r == [] <==> ValidNewStation(n)
    ensures FieldError("name", "required") in r <==> n.name == ""
    ensures FieldError("location_x", "gte") in r <==> n.locationX < 0
    ensures FieldError("location_y", "gte") in r <==> n.locationY < 0
    ensures forall f :: f in r ==> f.field in {"name", "location_x", "location_y"}
  {
    (if n.name == "" then [FieldError("name", "required")] else [])
    + (if n.locationX < 0 then [FieldError("location_x", "gte")] else [])
    + (if n.locationY < 0 then [FieldError("location_y", "gte")] else [])
  }

  /** The JSON form of a station type, keys as in its `json` tags. */
  function StationTypeJson(st: StationType): Json {
    Obj([
      Member("id", Str(st.id)),
      Member("name", Str(st.name)),
      Member("description", Str(st.description)),
      Member("stations", Num(st.stations)),
      Member("date_created", Stamp(st.dateCreated)),
      Member("date_updated", Stamp(st.dateUpdated))])
  }

  /** The JSON form of a station; `account_id` is named after its column. */
  function StationJson(s: Station): Json {
    Obj([
      Member("id", Str(s.id)),
      Member("station_type_id", Str(s.stationTypeId)),
      Member("account_id", Str(s.accountId)),
      Member("name", Str(s.name)),
      Member("description", Str(s.description)),
      Member("location_x", Num(s.locationX)),
      Member("location_y", Num(s.locationY)),
      Member("date_created", Stamp(s.dateCreated)),
      Member("date_updated", Stamp(s.dateUpdated))])
  }

  /** A station with an empty name and any non-negative location fails exactly one tag. */
  lemma EmptyNameIsTheOnlyFailure(n: NewStation)
    requires n.name == "" && n.locationX >= 0 && n.locationY >= 0
    ensures NewStationErrors(n) == [FieldError("name", "required")]
  {
  }

  /** Zero is a valid location: `gte=0` admits the boundary. */
  lemma OriginIsAValidLocation(name: string, description: string)
    requires name != ""
    ensures ValidNewStation(NewStation(name, description, 0, 0))
  {
  }
}

=== FILE: store.dfy ===
/** The database the repositories read and write, as three keyed tables.

    Besides the rows, the model keeps the constraints the schema migrations
    declare, because they decide which statements fail: the id columns are of
    type UUID (text that is not a UUID is refused, and a UUID is stored and
    printed in lower case whatever case it was written in), ids are primary keys, a
    station's `station_type_id` references an existing station type and is
    removed with it (ON DELETE CASCADE), and the location columns are 32-bit
    INTs.  `online == false` stands for every failure of the database other
    than "no rows". */
module Store {
  import opened Wrappers
  import opened Uuid
  import opened Errors
  import opened StationTypeModels
  import opened AccountModels

  /** A row of the station_type table. */
  datatype TypeRow = TypeRow(id: Id, name: string, description: string, dateCreated: Time, dateUpdated: Time)

  datatype Store = Store(
    online: bool,
    types: map<Id, TypeRow>,
    stations: map<Id, Station>,
    accounts: map<string, Account>) // keyed by the unique account name

  /** What a statement leaves behind: the store after it and its Go result. */
  datatype Step<T> = Step(db: Store, result: Result<T, Error>)

  /** A station row the schema admits. */
  predicate StationFits(s: Station) {
    ValidId(s.id) && ValidId(s.stationTypeId) && InInt32(s.locationX) && InInt32(s.locationY)
  }

  /** Every table is keyed by its own key column and every constraint holds. */
  predicate WellFormed(db: Store) {
    && (forall k :: k in db.types ==> db.types[k].id == k && ValidId(k) && IsLowerCase(k))
    && (forall k :: k in db.stations ==>
          && db.stations[k].id == k && IsLowerCase(k)
          && StationFits(db.stations[k]) && db.stations[k].stationTypeId in db.types)
    && (forall n :: n in db.accounts ==> db.accounts[n].name == n && ValidId(db.accounts[n].id))
    && (forall n, m :: n in db.accounts && m in db.accounts && n != m ==> db.accounts[n].id != db.accounts[m].id)
  }

  /** Ids of the stored stations of station type `typeId`. */
  function StationsOf(db: Store, typeId: Id): set<Id> {
    set k | k in db.stations.Keys && db.stations[k].stationTypeId == typeId
  }

  /** `COUNT(station.id)` of the LEFT JOIN for one station type. */
  function StationCount(db: Store, typeId: Id): nat {
    |StationsOf(db, typeId)|
  }

  /** The station type as the GROUP BY query returns it. */
  function View(db: Store, typeId: Id): StationType
    requires typeId in db.types
  {
    var row := db.types[typeId];
    StationType(row.id, row.name, row.description, StationCount(db, typeId), row.dateCreated, row.dateUpdated)
  }

  /** In a well-formed store a station type absent from the table has no stations. */
  lemma UnknownTypeHasNoStations(db: Store, typeId: Id)
    requires WellFormed(db) && typeId !in db.types
    ensures StationsOf(db, typeId) == {}
  {
  }
}

=== FILE: uuid.dfy ===
/** Identifiers and timestamps shared by every table of the service.

    Ids are the text form of UUIDs.  The UUID library is not part of this
    model: `ValidId` stands for "uuid.Parse accepts it" and is taken to be the
    canonical 8-4-4-4-12 hexadecimal form, which is the form `uuid.New()`
    produces and the form every id of the seed data has.  The letters may be
    written in either case; the UUID columns compare ids by value, so the
    repositories look rows up by `Canonical(id)`. */
module Uuid {

  type Id = string

  /** A point in time, in whole seconds.  Time zones, UTC normalisation and
      fractions of a second are not modelled, so neither is the rounding of a
      stored date to the microseconds a Postgres TIMESTAMP column keeps. */
  type Time = int

  /** `time.Hour`, in the unit of `Time`. */
  const Hour: int := 3600

  predicate IsHexDigit(c: char) {
    ('0' <= c <= '9') || ('a' <= c <= 'f') || ('A' <= c <= 'F')
  }

  /** Positions of the four hyphens in the canonical text form. */
  predicate IsHyphenPosition(i: int) {
    i == 8 || i == 13 || i == 18 || i == 23
  }

  /** The id is a well-formed UUID, so the repository will look it up. */
  predicate ValidId(s: string) {
    && |s| == 36
    && forall i :: 0 <= i < |s| ==> if IsHyphenPosition(i) then s[i] == '-' else IsHexDigit(s[i])
  }

  /** `c` with the hexadecimal letters A-F lowered; every other character is kept. */
  function LowerHex(c: char): char {
    if 'A' <= c <= 'F' then (c as int - 'A' as int + 'a' as int) as char else c
  }

  /** No upper-case hexadecimal letter: how Postgres prints a UUID and how
      `uuid.New()` writes one. */
  predicate IsLowerCase(s: string) {
    forall i :: 0 <= i < |s| ==> !('A' <= s[i] <= 'F')
  }

  /** The text Postgres prints for the UUID that `s` spells.  Two spellings
      that differ only in the case of their letters name the same row. */
  function Canonical(s: string): (t: string)
    ensures |t| == |s| && IsLowerCase(t)
    ensures ValidId(t) <==> ValidId(s)
    ensures IsLowerCase(s) ==> t == s
  {
    seq(|s|, i requires 0 <= i < |s| => LowerHex(s[i]))
  }

  /** Lowering is idempotent: a canonical id is its own canonical form. */
  lemma CanonicalIsIdempotent(s: string)
    ensures Canonical(Canonical(s)) == Canonical(s)
  {
  }

  /** Range of a Postgres INT column. */
  predicate InInt32(n: int) {
    -0x8000_0000 <= n < 0x8000_0000
  }

  /** Range of a Go `int` on a 64-bit platform. */
  predicate InInt64(n: int) {
    -0x8000_0000_0000_0000 <= n < 0x8000_0000_0000_0000
  }

  /** The two malformed ids the repository's own tests feed to the station functions are rejected. */
  lemma TestIdsAreMalformed()
    ensures !ValidId("123abc") && !ValidId("123456")
  {
  }
}

=== FILE: web.dfy ===
/** The web layer: requests, per-request values, handlers as functions, and
    the two responders that turn a handler's data or error into a reply. */
module Web {
  import opened Wrappers
  import opened Uuid
  import opened Errors
  import opened Json
  import opened Auth
  import opened Store

  const StatusOK: int := 200
  const StatusCreated: int := 201
  const StatusNoContent: int := 204
  const StatusBadRequest: int := 400
  const StatusUnauthorized: int := 401
  const StatusForbidden: int := 403
  const StatusNotFound: int := 404
  const StatusInternalServerError: int := 500

  const JsonContentType: string := "application/json; charset=utf-8"

  datatype Method = GET | POST | PUT | DELETE

  /** The values every request carries from the start of the pipeline. */
  datatype Values = Values(traceId: string, start: Time, statusCode: int)

  /** What the request's Basic authorization header decodes to. */
  datatype Credentials = Credentials(name: string, password: string)

  /** An incoming request: `id` is the `{id}` URL parameter, `body` the parsed
      JSON body (`None` when the body is not JSON), `basicAuth` the decoded
      Basic credentials (`None` when missing or malformed). */
  datatype Request = Request(verb: Method, path: string, id: string, body: Option<Json>, basicAuth: Option<Credentials>)

  /** What the request context holds: the request values and, once the
      authentication middleware has run, the caller's claims. */
  datatype Ctx = Ctx(values: Option<Values>, claims: Option<Claims>)

  /** The clock reading and the freshly generated id a handler may use. */
  datatype Env = Env(now: Time, newId: Id)

  /** What has been written to the response: status, Content-Type header and body. */
  datatype Reply = Reply(status: int, contentType: Option<string>, body: Option<Json>)

  /** Data handed to Respond: either it has a JSON encoding or marshalling fails. */
  datatype Payload = Data(json: Json) | Unencodable(detail: string)

  /** The outcome of a responder: what was written, and the error it returned. */
  datatype Sent = Sent(reply: Option<Reply>, err: Option<Error>)

  /** One line of the request log. */
  datatype LogRecord = LogRecord(traceId: string, verb: Method, statusCode: int, path: string)

  /** Everything a handler leaves behind: the store, the reply it wrote, the
      status it recorded in the request values (`None` if it recorded none),
      the error it returned and the log lines it emitted. */
  datatype Effect = Effect(db: Store, reply: Option<Reply>, statusCode: Option<int>, err: Option<Error>, log: seq<LogRecord>)

  type Handler = (Ctx, Request, Env, Store) -> Effect

  /** Sends `data` as JSON with `status`; a 204 sends the status alone. */
  function Respond(data: Payload, status: int): (s: Sent)
    ensures status == StatusNoContent ==> s == Sent(Some(Reply(status, None, None)), None)
    ensures status != StatusNoContent && data.Data? ==>
      s == Sent(Some(Reply(status, Some(JsonContentType), Some(data.json))), None)
    ensures status != StatusNoContent && data.Unencodable? ==> s.reply.None? && s.err.Some?
  {
    if status == StatusNoContent then Sent(Some(Reply(status, None, None)), None)
    else match data
      case Unencodable(detail) => Sent(None, Some(External(detail)))
      case Data(j) => Sent(Some(Reply(status, Some(JsonContentType), Some(j))), None)
  }

  /** The body of an error reply; `fields` is omitted from the JSON when empty. */
  datatype ErrorResponse = ErrorResponse(error: string, fields: seq<FieldError>)

  function FieldErrorJson(f: FieldError): Json {
    Obj([Member("field", Str(f.field)), Member("error", Str(f.tag))])
  }

  function ErrorJson(er: ErrorResponse): Json {
    Obj([Member("error", Str(er.error))]
        + if er.fields == [] then []
          else [Member("fields", Arr(seq(|er.fields|, i requires 0 <= i < |er.fields| => FieldErrorJson(er.fields[i]))))])
  }

  /** The reply to an error: a request error, however deeply wrapped, is
      answered with its own status and message; anything else with a bare 500. */
  function RespondError(err: Error): (s: Sent)
    ensures Cause(err).RequestError? ==>
      s == Respond(Data(ErrorJson(ErrorResponse(Message(Cause(err).err), Cause(err).fields))), Cause(err).status)
    ensures !Cause(err).RequestError? ==>
      s == Sent(Some(Reply(StatusInternalServerError, Some(JsonContentType),
                           Some(ErrorJson(ErrorResponse("Internal Server Error", []))))), None)
    ensures s.reply.Some? && s.err.None?
  {
    match Cause(err)
    case RequestError(inner, status, fields) =>
      Respond(Data(ErrorJson(ErrorResponse(Message(inner), fields))), status)
    case _ =>
      Respond(Data(ErrorJson(ErrorResponse("Internal Server Error", []))), StatusInternalServerError)
  }

  /** What the client finally receives for a handler's effect: the reply the
      handler wrote, or, when it returned an error, RespondError's reply. */
  function ClientReply(e: Effect): Option<Reply> {
    if e.err.Some? then RespondError(e.err.value).reply else e.reply
  }

  /** The status the client finally receives, 0 when nothing was written. */
  function ClientStatus(e: Effect): int {
    match ClientReply(e)
    case Some(r) => r.status
    case None => 0
  }

  /** The status a client receives when a handler returns `err`: the status of
      the request error it wraps, or 500. */
  function ErrorStatus(err: Error): int {
    if Cause(err).RequestError? then Cause(err).status else StatusInternalServerError
  }

  /** A handler that stopped by returning `err`, leaving the store at `db`. */
  function Returned(db: Store, err: Error): (e: Effect)
    ensures e.err == Some(err) && e.db == db && e.log == []
    ensures ClientStatus(e) == ErrorStatus(err)
  {
    Effect(db, None, None, Some(err), [])
  }

  /** A handler that stopped by returning `err` wrapped with `context`: the
      wrap does not change the status the client receives. */
  function ReturnedWrapped(db: Store, context: string, err: Error): (e: Effect)
    ensures e == Returned(db, Wrapped(context, err))
    ensures ClientStatus(e) == ErrorStatus(err)
  {
    Returned(db, Wrapped(context, err))
  }

  /** A handler that ended by responding, leaving the store at `db`. */
  function Wrote(db: Store, s: Sent): (e: Effect)
    ensures e.db == db && e.log == [] && e.statusCode.None?
    ensures s.err.None? ==> ClientReply(e) == s.reply
  {
    Effect(db, s.reply, None, s.err, [])
  }

  /** Go's `%q` verb for an id: the id between double quotes. */
  function Quoted(s: string): (q: string)
    ensures |q| == |s| + 2 && q[0] == q[|q| - 1] == '"' && q[1..|q| - 1] == s
  {
    "\"" + s + "\""
  }

  /** A 204 reply is the status alone, whatever data was handed over. */
  lemma NoContentIgnoresData(d1: Payload, d2: Payload)
    ensures Respond(d1, StatusNoContent) == Respond(d2, StatusNoContent)
    ensures Respond(d1, StatusNoContent).reply.value.body.None?
    ensures Respond(d1, StatusNoContent).reply.value.contentType.None?
  {
  }

  /** Wrapping an error any number of times does not change the reply to it. */
  lemma {:induction false} RespondErrorSeesThroughWraps(e: Error, contexts: seq<string>)
    ensures RespondError(WrapAll(e, contexts)) == RespondError(e)
  {
    CauseOfWrapAll(e, contexts);
  }

  /** A request error wrapped any number of times reaches the client with its
      own status and its own message. */
  lemma {:induction false} WrappedRequestErrorKeepsStatus(inner: Error, status: int, contexts: seq<string>)
    requires status != StatusNoContent
    ensures
      var reply := RespondError(WrapAll(RequestError(inner, status, []), contexts)).reply.value;
      reply.status == status && reply.body == Some(Obj([Member("error", Str(Message(inner)))]))
  {
    CauseOfWrapAll(RequestError(inner, status, []), contexts);
    assert [Member("error", Str(Message(inner)))] + [] == [Member("error", Str(Message(inner)))];
  }

  /** Errors that are not request errors all get the same reply, so no
      internal detail reaches the client. */
  lemma InternalErrorsLookAlike(e1: Error, e2: Error)
    requires !Cause(e1).RequestError? && !Cause(e2).RequestError?
    ensures RespondError(e1) == RespondError(e2)
    ensures RespondError(e1).reply.value.status == StatusInternalServerError
  {
  }
}

=== FILE: wrappers.dfy ===
/** Option and Result, the failure-carrying values every operation of the model returns. */
module Wrappers {

  datatype Option<+T> = None | Some(value: T) {

    /** The value, or `default` when there is none. */
    function GetOr(default: T): T {
      match this
      case Some(v) => v
      case None => default
    }
  }

  /** A Go `(value, error)` pair in which exactly one side is meaningful. */
  datatype Result<+T, +E> = Ok(value: T) | Err(error: E) {

    predicate IsFailure() {
      Err?
    }

    function PropagateFailure<U>(): Result<U, E>
      requires Err?
    {
      Err(error)
    }

    function Extract(): T
      requires Ok?
    {
      value
    }
  }
}
